=== FILE: README.md ===
# Food-delivery storefront: cart, catalog and listings in Dafny

This project models the logic of a small browser storefront. Its pages are a
home page, a restaurants page, a restaurant detail page and a checkout page.
They share a header script. The model covers three parts:

- **The cart store.** The cart is kept in browser storage. It is a list of
  items keyed by dish id and restaurant id. The model covers reading it with
  a fallback, adding an item, the checkout page's +/- buttons, the badge count
  and order totals, and validating the order form and clearing the cart.
- **The catalog generator.** `buildRestaurants` and `buildDishesForRestaurant`
  derive a hundred restaurants and their menus from a configuration document
  by index arithmetic. `ratingClass` colours a rating. Several pages carry
  their own copy of these functions:
  - `buildRestaurants` is in `script.js`, `restaurants.js` and `restaurant-detail.js`;
  - `buildDishesForRestaurant` is in `script.js` and `restaurant-detail.js`;
  - `ratingClass` and `createCuisineFilters` are in `script.js` and `restaurants.js`.

  The model defines each once, and the rows below cite the copy the member was read from.
- **Listing and selection.** This covers:
  - the tag, cuisine and search filters over restaurants;
  - the menu search;
  - the sorted, duplicate-free cuisine chips and their toggle;
  - the carousel cap and the show-all switch;
  - the ADD button's guard;
  - opening a restaurant by the id in the page address.

Storage is a value, and each operation returns the new page state. The
configuration document is an already-parsed value.

Ratings are integers in tenths, the value each record stores after rounding
to one decimal:

- For a restaurant, `Catalog.RatingTenths` proves that the rounding never
  meets a tie.
- For a dish, the floating-point sum lands just below each .x5 midpoint, so the
  stored tenth is the decimal rating rounded down (`Catalog.DishRatingTenths`).

A cart item's missing `quantity` is written as 0. Every reader in the source
uses `quantity || 1`, which treats a missing quantity and 0 alike.

Modules: `Wrappers` (Option, Result), `Text` (trim, lower-casing, substring
search, join, decimal numerals, code-point order), `Seqs` (filter, prefix,
subsequence), `Catalog`, `Cart`, `Header`, `Checkout`, `Listing`, `Detail`,
and `Session`. `Session` runs any sequence of cart actions and proves that the
invariant holds throughout.

## The "Top Rated" tag and the shown rating

The tag is decided on the unrounded rating (`script.js:25-30`), while cards
show the rating rounded to one decimal (`script.js:37`). The restaurant at
index 13 has an unrounded rating of 4.38. It shows 4.4 but has no tag.
`Catalog.TopRatedNeedsUnroundedRating` states this.

## Model

| member | source | states |
|---|---|---|
| Header.GetCart | header.js:5-12 | a stored cart is returned as stored; a missing, empty or unparseable slot gives the empty cart, never an error |
| Header.SaveCart | header.js:14-17 | reading back after a save gives the saved cart, the user and location slots are untouched, and the badge is redrawn to match |
| Header.SaveWhatWasRead | header.js:5-17 | saving the cart just read changes neither the cart a reader sees nor an in-sync badge |
| Header.BadgeFor | header.js:57-69 | the badge is shown iff the count is positive, and then its text is the count's decimal numeral with no leading zero, which parses back to the count; otherwise it is a hidden "0" |
| Header.RefreshBadge | header.js:57-69 | redrawing leaves storage alone and brings a present badge in line with the stored cart's count |
| Header.AddItem | header.js:19-33 | the stored cart afterwards is the add applied to the stored cart; a corrupt slot is replaced by a one-line cart of quantity 1; user and location are untouched; a present badge stays present and shows the new count, and a page without one gets none |
| Header.AddItemKeepsInvariant | header.js:19-33 | on a valid stored cart an add keeps keys unique and quantities positive and raises the badge count by exactly one |
| Header.AddButtonClick | script.js:207-225 | a card that fails the guard leaves the page unchanged; one that passes adds exactly the guarded item |
| Header.GetUser | header.js:35-42 | a user is returned exactly when the slot holds a parsed value; missing, blank or unparseable gives null |
| Header.SetUser | header.js:44-46 | the stored user reads back, and cart and location are untouched |
| Header.LogOut | header.js:88-92 | after log-out no user is stored, and cart and location are untouched |
| Header.Greeting | header.js:83-87 | the greeting appears iff a user with a non-empty name is stored, and reads "Hi, " followed by the name |
| Header.GetLocation | header.js:48-50 | an unset location reads as "", a set one as stored |
| Header.SetLocation | header.js:52-55 | the location reads back as set, and cart and user are untouched |
| Cart.FindKey | header.js:21-23 | the result is the index of the first entry with the key, or none when no entry has it |
| Cart.AddToCart | header.js:19-31 | with no entry for the key the item is appended with quantity 1 (any quantity it carried is overwritten) and earlier entries are kept; otherwise the first matching entry gets quantity (quantity or 1) + 1, with length, order and all other entries unchanged; a cart with unique keys and positive quantities keeps both |
| Cart.AddRaisesCountByOne | header.js:61 | when no quantity is negative, an add raises `Cart.Count`, the badge's count, by exactly one and `Cart.Subtotal` by the price of the line that grew |
| Cart.AddTwiceExample | header.js:19-31 | the same dish added twice is one line of quantity 2 with line total twice the price |
| Cart.ChangeQuantity | checkout.js:90-104 | no matching entry means no save; increase adds one to the first match only; decrease subtracts one and removes exactly that entry when the result is at most 0, else keeps it in place; any other action saves the cart unchanged; a cart with unique keys and positive quantities keeps both |
| Cart.DecreaseToZeroRemovesKey | checkout.js:98-103 | on a valid cart, decreasing a line of quantity 1 leaves no entry with its key |
| Cart.ChangeMovesCountByOne | checkout.js:96-104 | on a valid cart increase raises the count by one and decrease lowers it by one |
| Cart.DecreaseExample | checkout.js:98-103 | one line of quantity 1, decreased, leaves the empty cart |
| Cart.SumAppend | checkout.js:42-45 | for the folds `Cart.Count` and `Cart.Subtotal`, the totals of a concatenation are the sums of the totals of its parts |
| Cart.SumUpdate | checkout.js:42-45 | replacing one entry changes a total by the difference of the two terms |
| Cart.SumRemove | checkout.js:42-45 | removing one entry subtracts its term from a total |
| Cart.CountAtLeastLines | header.js:61 | with every quantity at least 1 the count is at least the number of lines |
| Cart.CartRequest | script.js:207-221 | an item is produced iff id, restaurant id and price are nonzero and the name is non-empty; the item carries exactly the card's fields and the restaurant name may be empty |
| Checkout.Summarize | checkout.js:27-72 | an empty cart shows zero items, subtotal and total, disables payment and shows the empty note; otherwise one row per entry in order, carrying its id, restaurant id, name and restaurant name, with quantity (quantity or 1) and amount price times quantity, items and subtotal are `Cart.Count` and `Cart.Subtotal` of the cart, the total adds the 40 delivery fee, and payment is enabled |
| Checkout.SubtotalIsSumOfAmounts | checkout.js:42-62 | the rows' amounts add up to the subtotal |
| Checkout.QuantityClick | checkout.js:90-111 | with no matching entry the page is unchanged; otherwise the changed cart is stored, and a present badge stays present and shows the new count; user and location are untouched |
| Checkout.QuantityClickKeepsInvariant | checkout.js:90-111 | a quantity click keeps the stored cart valid and the badge in sync |
| Checkout.Submit | checkout.js:160-193 | an empty cart is the error iff the cart is empty; missing details iff the cart is non-empty and a trimmed field, the location or the payment is empty; invalid phone iff those pass and the trimmed phone is shorter than 10; any error leaves the page as it was; success stores the location, empties the cart and syncs the badge |
| Checkout.SubmitHidesBadge | checkout.js:185-193 | after a successful order a present badge is a hidden "0" |
| Checkout.AreaChoices | checkout.js:117-123 | the configuration's areas, even an empty list, when the document loaded and has them; the five built-in areas otherwise |
| Session.StepKeepsConsistent | checkout.js:90-111 | every ADD click, quantity click and order submission keeps the stored cart valid and the badge in sync |
| Session.RunKeepsConsistent | header.js:19-33 | `Session.Run`, any sequence of those actions from a consistent page ends on a consistent page, so no two cart lines ever share a key |
| Session.CorruptStartIsConsistent | header.js:5-12 | a missing or corrupt cart slot with a hidden "0" badge is a consistent start |
| Catalog.RatingTenths | script.js:25-37 | the stored rating is the unique nearest tenth of the unrounded rating |
| Catalog.RestaurantAt | script.js:18-42 | id is index + 1; area, cuisines and name prefix are the configuration's entries at index mod list length, unless the list is empty (or, for area and prefix, the entry is empty); the name is prefix, space, id; delivery starts at 25 + 5 (i mod 6) and cost for two is 250 + 50 (i mod 8); the rating is the nearest tenth of 3.6 + 0.06 (i mod 15), between 3.6 and 4.4; tags are "Top Rated" iff index mod 15 is 14, then "Offers" iff index mod 4 is 0, in that order |
| Catalog.BuildRestaurants | script.js:11-46 | exactly `total` restaurants, the one at index i being the generated one with id i + 1 |
| Catalog.NameEndsWithId | script.js:20-21 | a restaurant's name ends in its id, whatever the prefix |
| Catalog.ListsCycle | script.js:20-23 | prefix, area and cuisines at index i and i + length of their list are the same |
| Catalog.Fallbacks | script.js:12-23 | an empty or missing list of areas gives "City Center", of combinations ["Indian"], of prefixes "Restaurant <id>"; an empty string entry also falls back for area and prefix |
| Catalog.NumbersRepeatEvery120 | script.js:25-31 | rating, delivery, cost and tags repeat with period 120 |
| Catalog.RatingClass | restaurants.js:68-72 | the top class iff the rating is at least 4.3, the mid class iff 3.8 up to 4.3, the low class iff below 3.8 |
| Catalog.RatingClassOfGenerated | script.js:98-102 | over generated restaurants the top class is exactly index mod 15 at least 11, mid 3 to 10, low up to 2 |
| Catalog.TopRatedNeedsUnroundedRating | script.js:25-37 | every tagged restaurant shows 4.4, but the one at index 13 shows 4.4 without the tag |
| Catalog.ExampleCatalog | script.js:11-46 | two areas, one combination and prefix "Cafe" give "Cafe 1".."Cafe 3" in areas A, B, A |
| Catalog.DishAt | script.js:52-72 | the dish has id 100 × restaurant id + i and belongs to that restaurant; its name is the template's name, a space and i + 1; its price is the template's base plus 10 (i mod 6), so 0 to 50 more, its stored rating is 3.8 + 0.05 (i mod 8) rounded down to the tenth (3.8 to 4.1), and vegetarian flag and cuisine come from the template |
| Catalog.DishRatingTenths | script.js:62-69 | the stored tenth is at most half a tenth below 3.8 + 0.05 (i mod 8), never above it |
| Catalog.BuildDishes | restaurant-detail.js:48-76 | exactly `count` dishes, the one at index i being the generated one, all of that restaurant |
| Catalog.DishIdDecodes | restaurant-detail.js:64-66 | below index 100 a dish id divided by 100 is the restaurant id and its remainder is the index |
| Catalog.DishIdsDistinct | restaurant-detail.js:64-66 | with at most 100 dishes per restaurant, two dish ids agree iff same restaurant and same index |
| Catalog.DishIdsCollideBeyond100 | script.js:65 | a 101st dish of restaurant 1 would take the id of restaurant 2's first dish |
| Catalog.DishNameEndsWithPosition | script.js:67 | a dish name ends in its 1-based position |
| Catalog.TemplatesCycle | script.js:53-59 | `Catalog.TemplateAt`, the template lookup with its fallback: templates cycle with the template list's length; with none, every dish takes the built-in template: it is named "Chef Special" followed by its position, is vegetarian and Indian, and is priced 200 to 250 |
| Listing.Query | restaurants.js:187-189 | the query is the desktop box's text, or the mobile box's when the desktop box is empty, trimmed and lower-cased; it has no upper-case letter and no white space at either end |
| Listing.ByTagIsFilter | restaurants.js:193-197 | the tag step keeps exactly the restaurants with the tag, or all under "All" |
| Listing.ByCuisineIsFilter | restaurants.js:199-203 | the cuisine step keeps exactly the restaurants with the cuisine, or all when none is selected |
| Listing.ByQueryIsFilter | restaurants.js:205-216 | the search step keeps exactly the restaurants whose lower-cased name, area or joined cuisines contain the query |
| Listing.ApplyFiltersIsAdmitted | restaurants.js:191-218 | `Listing.ApplyFilters`, the three steps together, keep exactly the restaurants passing tag, cuisine and search, as an order-preserving subsequence |
| Listing.NoFiltersKeepAll | restaurants.js:191-218 | with tag "All", no cuisine and an empty query the list is returned unchanged |
| Listing.TagNarrows | restaurants.js:193-197 | choosing a tag yields a subsequence of the list shown under "All" |
| Listing.CuisineNarrows | restaurants.js:199-203 | choosing a cuisine yields a subsequence of the list shown with none |
| Listing.CuisineHitMatches | restaurants.js:209-213 | a restaurant with a cuisine containing the query, ignoring case, passes the search |
| Listing.HomeFilters | script.js:237-269 | the home list is the filter by the admitted predicate over the first feature-count restaurants, keeping every occurrence; it holds at most the feature count, is an order-preserving subsequence of the first that many restaurants, and holds exactly those that pass the filters |
| Listing.HomeUnfilteredIsPrefix | script.js:242-269 | with no filter the home list is exactly the first twelve restaurants |
| Listing.AllCuisines | script.js:79-82 | the collected cuisines are exactly those of some restaurant |
| Listing.InsertSorted | script.js:79-88 | inserting into a strictly sorted list keeps it strictly sorted and adds exactly that element |
| Listing.InsertAll | script.js:79-88 | inserting a list keeps strict order and yields the union of the elements |
| Listing.CuisineChips | script.js:78-88 | the chips are every cuisine that occurs, each once, in ascending code-point order |
| Listing.ToggleCuisine | restaurants.js:250-261 | clicking the active chip clears the selection; clicking any other selects it |
| Listing.ToggleTwice | script.js:301-311 | from no selection, or from another chip, two clicks on the same chip leave no selection |
| Listing.Carousel | restaurants.js:122 | the carousel holds the first min(16, n) restaurants in order |
| Listing.ToggleShowAll | restaurants.js:307-323 | the switch flips show-all; the grid is visible iff all are shown, and the carousel, if present, is hidden iff all are shown |
| Listing.ToggleShowAllTwice | restaurants.js:307-323 | two clicks restore the show-all state |
| Detail.FindRestaurant | restaurant-detail.js:211 | the result is the first restaurant with the id, or none when no restaurant has it |
| Detail.LookupGenerated | restaurant-detail.js:210-215 | among generated restaurants id k is found iff it is in 1..total, and it is the one at index k - 1 |
| Detail.OpenDetail | restaurant-detail.js:199-217 | an absent, non-numeric or 0 id is rejected before lookup; the page opens iff the id is in 1..100, showing that restaurant (the generated one at index id - 1) and exactly the menu the dish builder makes for it with 30 dishes |
| Detail.MenuIdsDistinct | restaurant-detail.js:217 | the dishes of an opened page have pairwise distinct ids |
| Detail.FilterDishes | restaurant-detail.js:149-159 | an empty query returns all dishes; otherwise the result is the filter by the search predicate, an order-preserving subsequence keeping every occurrence of exactly the dishes whose lower-cased name or cuisine contains the query |
| Text.Trim | checkout.js:166-168 | the result is a contiguous slice of the input; only white space is removed, and the kept ends are not white space |
| Text.TrimIdempotent | checkout.js:166-168 | trimming twice is trimming once |
| Text.LowerIsLower | restaurants.js:207-209 | `Text.Lower` maps each ASCII capital to its small letter; lower-cased text has no upper-case letter left, and lower-casing it again changes nothing |
| Text.ContainsIffOccurs | restaurants.js:210-214 | `Text.Contains`, the substring search, succeeds iff the query occurs at some position |
| Text.JoinHasEach | restaurants.js:209 | `Text.Join`, the `join` of the cuisine list: every joined cuisine occurs in the joined text |
| Text.ParseNatToString | header.js:63 | the badge's decimal numeral parses back to the count |
| Text.NatToString | header.js:63 | the numeral is non-empty, all digits, and starts with 0 only for 0 |
| Text.LexLessTransitive | script.js:88 | the sort order is transitive |
| Text.LexLessTotal | script.js:88 | any two different strings are ordered one way or the other |
| Seqs.Filter | restaurants.js:194 | a filter keeps exactly the input elements satisfying the predicate, each as many times as it occurs in the input |
| Seqs.FilterIsSubseq | restaurants.js:194 | a filter's result is an order-preserving subsequence of its input |
| Seqs.FilterFuse | restaurants.js:193-216 | two successive filters equal one filter by the conjunction |
| Seqs.FilterSameBy | restaurant-detail.js:149-159 | filters by two predicates that agree on every element give the same list |
| Seqs.Take | script.js:242 | `slice(0, k)` is the first k elements, or all when fewer |

## Left out

- All DOM work is left out: templates, classes, scrolling, navigation, event wiring and the header's location line. Only the values the pages derive are modelled.
- Fetching the configuration is left out. The model takes an already-parsed document. On the home and detail pages a failed load shows an error message (`script.js:376-382`, `restaurant-detail.js:227-235`). On the restaurants page it is only logged to the console and nothing is shown (`restaurants.js:325-327`). None of these paths has logic to model.
- `JSON.parse`, `JSON.stringify` and storage are left out. A slot is missing, blank, unparseable or a parsed value of the right shape. A parseable value of another shape is not modelled. The source would return it as-is and fail later.
- The `typeof fdGetCart === "function"` checks and the direct storage fallback in checkout.js are left out. The header script is always loaded.
- `Number()` parsing of dataset strings is left out. Ids and prices arrive as integers. A non-numeric URL id is the absent case of `Detail.OpenDetail`. NaN in other places is not modelled, and neither are fractional ids, which the source never finds.
- Text.Lower: lower-cases ASCII letters only, not the full Unicode mapping of `toLowerCase`.
- Checkout.Submit: measures the phone in characters. JavaScript counts UTF-16 code units, and the two differ only above U+FFFF.
- Listing.CuisineChips: sorts by code points. JavaScript compares UTF-16 code units, and the two differ only above U+FFFF.
- Numbers are unbounded integers. The source's are doubles, exact only up to 2^53. So the exact counts, subtotals and quantity steps (`Cart.AddRaisesCountByOne`, `Checkout.Summarize`) hold for the source only below that bound, and no reachable cart comes near it.
- Display strings are left out: the ratings' one-decimal text, the delivery window text, the cost-for-two text and the rupee amounts.
- Catalog.DishAt: the stored dish rating is written down from the floating-point result of `3.8 + (i % 8) * 0.05` followed by `toFixed(1)`. The model does not compute floating point, so the rounding down at each .x5 value is a stated fact, not a derived one.
- On the home page, the "best dishes" list is left out. So are the ten-dish sample menus and the `restaurantsById` name lookup. These are display selections that prove nothing about the cart.
- The checkout page's pre-filling of the location and name fields is left out. So is the best-category shortcut that types a keyword into the search box.
- login.js is a form that stores a name and email. It is not part of this model.
- fastapi.py is a database-backed server. It is not part of this model.

=== FILE: cart.dfy ===
/** The cart: an ordered list of line items keyed by (dish id, restaurant id).
    `AddToCart` is the list update `fdAddToCart` performs, `ChangeQuantity` the
    one the checkout page's +/- buttons perform, and `Count` and `Subtotal` are
    the folds the badge and the order summary display.

    A stored item may lack a quantity; every reader uses `quantity || 1`, which
    treats a missing quantity and 0 alike, so 0 stands for "missing" here. */
module Cart {
  import opened Wrappers

  datatype CartItem = CartItem(
    id: int,
    restaurantId: int,
    name: string,
    restaurantName: string,
    price: int,
    quantity: int)

  /** `item.quantity || 1`. */
  function Qty(item: CartItem): int {
    if item.quantity == 0 then 1 else item.quantity
  }

  predicate HasKey(item: CartItem, id: int, restaurantId: int) {
    item.id == id && item.restaurantId == restaurantId
  }

  /** Index `k` holds the first entry with the key. */
  predicate FirstMatch(cart: seq<CartItem>, id: int, restaurantId: int, k: int) {
    && 0 <= k < |cart|
    && HasKey(cart[k], id, restaurantId)
    && forall j :: 0 <= j < k ==> !HasKey(cart[j], id, restaurantId)
  }

  predicate NoMatch(cart: seq<CartItem>, id: int, restaurantId: int) {
    forall j :: 0 <= j < |cart| ==> !HasKey(cart[j], id, restaurantId)
  }

  /** `cart.find(c => c.id === id && c.restaurantId === restaurantId)`, as an index. */
  function FindKey(cart: seq<CartItem>, id: int, restaurantId: int): (r: Option<nat>)
    ensures r.Some? ==> FirstMatch(cart, id, restaurantId, r.value)
    ensures r.None? ==> NoMatch(cart, id, restaurantId)
  {
    if |cart| == 0 then None
    else if HasKey(cart[0], id, restaurantId) then Some(0)
    else match FindKey(cart[1..], id, restaurantId)
      case None => None
      case Some(k) => Some(k + 1)
  }

  /** No two entries share a key. */
  predicate KeysUnique(cart: seq<CartItem>) {
    forall i, j :: 0 <= i < j < |cart| ==> !HasKey(cart[j], cart[i].id, cart[i].restaurantId)
  }

  predicate QuantitiesPositive(cart: seq<CartItem>) {
    forall i :: 0 <= i < |cart| ==> cart[i].quantity >= 1
  }

  /** The cart invariant: unique keys and explicit positive quantities. */
  predicate Valid(cart: seq<CartItem>) {
    KeysUnique(cart) && QuantitiesPositive(cart)
  }

  /** The list update of `fdAddToCart`: bump the first entry with the item's key
      (a missing quantity counting as 1), or append the item with quantity 1. */
  function AddToCart(cart: seq<CartItem>, item: CartItem): (r: seq<CartItem>)
    ensures NoMatch(cart, item.id, item.restaurantId) ==> r == cart + [item.(quantity := 1)]
    ensures forall k :: FirstMatch(cart, item.id, item.restaurantId, k) ==>
      && |r| == |cart|
      && r[k] == cart[k].(quantity := Qty(cart[k]) + 1)
      && forall j :: 0 <= j < |cart| && j != k ==> r[j] == cart[j]
    ensures Valid(cart) ==> Valid(r)
  {
    match FindKey(cart, item.id, item.restaurantId)
    case None =>
      var r := cart + [item.(quantity := 1)];
      assert forall j :: 0 <= j < |cart| ==> r[j] == cart[j];
      r
    case Some(k) =>
      var r := cart[k := cart[k].(quantity := Qty(cart[k]) + 1)];
      assert forall j :: 0 <= j < |r| ==> r[j].id == cart[j].id && r[j].restaurantId == cart[j].restaurantId;
      r
  }

  datatype QtyAction = Increase | Decrease | OtherAction

  /** The quantity buttons: `None` when no entry has the key (the handler
      returns before saving), otherwise the cart to save. Increase adds one to
      the first matching entry; decrease subtracts one and removes the entry
      when nothing is left; any other action saves the cart as it is. */
  function ChangeQuantity(cart: seq<CartItem>, id: int, restaurantId: int, action: QtyAction): (r: Option<seq<CartItem>>)
    ensures r.None? <==> NoMatch(cart, id, restaurantId)
    ensures forall k :: FirstMatch(cart, id, restaurantId, k) ==>
      && r.Some?
      && (action == Increase ==> r.value == cart[k := cart[k].(quantity := Qty(cart[k]) + 1)])
      && (action == Decrease && Qty(cart[k]) <= 1 ==> r.value == cart[..k] + cart[k + 1..])
      && (action == Decrease && Qty(cart[k]) > 1 ==> r.value == cart[k := cart[k].(quantity := Qty(cart[k]) - 1)])
      && (action == OtherAction ==> r.value == cart)
    ensures Valid(cart) && r.Some? ==> Valid(r.value)
  {
    match FindKey(cart, id, restaurantId)
    case None => None
    case Some(k) =>
      assert forall k' :: FirstMatch(cart, id, restaurantId, k') ==> k' == k;
      Some(ChangeAt(cart, k, action))
  }

  /** The button's effect on entry `k`, once the handler has found it. */
  function ChangeAt(cart: seq<CartItem>, k: nat, action: QtyAction): (r: seq<CartItem>)
    requires k < |cart|
    ensures action == Increase ==> r == cart[k := cart[k].(quantity := Qty(cart[k]) + 1)]
    ensures action == Decrease && Qty(cart[k]) <= 1 ==> r == cart[..k] + cart[k + 1..]
    ensures action == Decrease && Qty(cart[k]) > 1 ==> r == cart[k := cart[k].(quantity := Qty(cart[k]) - 1)]
    ensures action == OtherAction ==> r == cart
    ensures Valid(cart) ==> Valid(r)
  {
    match action
    case Increase => SetQuantity(cart, k, Qty(cart[k]) + 1)
    case Decrease =>
      var q := Qty(cart[k]) - 1;
      if q <= 0 then RemoveAt(cart, k) else SetQuantity(cart, k, q)
    case OtherAction => cart
  }

  /** The cart without entry `k`: the entries before it, then those after it. */
  function RemoveAt(cart: seq<CartItem>, k: nat): (r: seq<CartItem>)
    requires k < |cart|
    ensures r == cart[..k] + cart[k + 1..]
    ensures |r| == |cart| - 1
    ensures forall j :: 0 <= j < |r| ==> r[j] == (if j < k then cart[j] else cart[j + 1])
    ensures Valid(cart) ==> Valid(r)
  {
    cart[..k] + cart[k + 1..]
  }

  /** Entry `k` with a new positive quantity; keys and other entries are kept. */
  function SetQuantity(cart: seq<CartItem>, k: nat, q: int): (r: seq<CartItem>)
    requires k < |cart|
    ensures |r| == |cart| && r[k] == cart[k].(quantity := q)
    ensures forall j :: 0 <= j < |r| && j != k ==> r[j] == cart[j]
    ensures r == cart[k := cart[k].(quantity := q)]
    ensures Valid(cart) && q >= 1 ==> Valid(r)
  {
    var r := cart[k := cart[k].(quantity := q)];
    assert forall j :: 0 <= j < |r| ==> r[j].id == cart[j].id && r[j].restaurantId == cart[j].restaurantId;
    r
  }

  // ---------------------------------------------------------------- folds

  function SumOver(cart: seq<CartItem>, f: CartItem -> int): int {
    if |cart| == 0 then 0 else f(cart[0]) + SumOver(cart[1..], f)
  }

  /** The amount a line contributes: `price * (quantity || 1)`. */
  function LineTotal(item: CartItem): int {
    item.price * Qty(item)
  }

  /** The badge count and the summary's item count: the sum of `quantity || 1`. */
  function Count(cart: seq<CartItem>): int {
    SumOver(cart, Qty)
  }

  /** The summary subtotal: the sum of the line totals. */
  function Subtotal(cart: seq<CartItem>): int {
    SumOver(cart, LineTotal)
  }

  lemma {:induction false} SumAppend(a: seq<CartItem>, b: seq<CartItem>, f: CartItem -> int)
    ensures SumOver(a + b, f) == SumOver(a, f) + SumOver(b, f)
    decreases |a|
  {
    if |a| == 0 {
      assert a + b == b;
    } else {
      assert (a + b)[1..] == a[1..] + b;
      SumAppend(a[1..], b, f);
    }
  }

  lemma SumSingle(x: CartItem, f: CartItem -> int)
    ensures SumOver([x], f) == f(x)
  {
    assert [x][1..] == [];
  }

  lemma SplitAt(cart: seq<CartItem>, k: nat)
    requires k < |cart|
    ensures cart == cart[..k] + ([cart[k]] + cart[k + 1..])
  {
  }

  lemma SumCons(x: CartItem, s: seq<CartItem>, f: CartItem -> int)
    ensures SumOver([x] + s, f) == f(x) + SumOver(s, f)
  {
    assert ([x] + s)[1..] == s;
  }

  /** Replacing one entry changes the sum by the difference of the two terms. */
  lemma SumUpdate(cart: seq<CartItem>, k: nat, y: CartItem, f: CartItem -> int)
    requires k < |cart|
    ensures SumOver(cart[k := y], f) == SumOver(cart, f) - f(cart[k]) + f(y)
  {
    var pre, post := cart[..k], cart[k + 1..];
    SplitAt(cart, k);
    SplitAt(cart[k := y], k);
    assert cart[k := y][..k] == pre && cart[k := y][k + 1..] == post;
    SumAppend(pre, [cart[k]] + post, f);
    SumAppend(pre, [y] + post, f);
    SumCons(cart[k], post, f);
    SumCons(y, post, f);
  }

  /** Removing one entry subtracts its term. */
  lemma SumRemove(cart: seq<CartItem>, k: nat, f: CartItem -> int)
    requires k < |cart|
    ensures SumOver(cart[..k] + cart[k + 1..], f) == SumOver(cart, f) - f(cart[k])
  {
    var pre, post := cart[..k], cart[k + 1..];
    SplitAt(cart, k);
    SumAppend(pre, [cart[k]] + post, f);
    SumCons(cart[k], post, f);
    SumAppend(pre, post, f);
  }

  /** With every quantity explicit, the count is at least the number of lines. */
  lemma {:induction false} CountAtLeastLines(cart: seq<CartItem>)
    requires QuantitiesPositive(cart)
    ensures Count(cart) >= |cart|
    decreases |cart|
  {
    if |cart| > 0 {
      CountAtLeastLines(cart[1..]);
    }
  }

  // ---------------------------------------------------------------- properties of add

  /** Adding raises the badge count by exactly one and the subtotal by the unit
      price of the line that grew (the stored line's price for a repeat add). */
  lemma AddRaisesCountByOne(cart: seq<CartItem>, item: CartItem)
    requires forall j :: 0 <= j < |cart| ==> cart[j].quantity >= 0
    ensures Count(AddToCart(cart, item)) == Count(cart) + 1
    ensures NoMatch(cart, item.id, item.restaurantId) ==>
      Subtotal(AddToCart(cart, item)) == Subtotal(cart) + item.price
    ensures forall k :: FirstMatch(cart, item.id, item.restaurantId, k) ==>
      Subtotal(AddToCart(cart, item)) == Subtotal(cart) + cart[k].price
  {
    match FindKey(cart, item.id, item.restaurantId)
    case None =>
      SumAppend(cart, [item.(quantity := 1)], Qty);
      SumAppend(cart, [item.(quantity := 1)], LineTotal);
      SumSingle(item.(quantity := 1), Qty);
      SumSingle(item.(quantity := 1), LineTotal);
    case Some(k) =>
      var y := cart[k].(quantity := Qty(cart[k]) + 1);
      SumUpdate(cart, k, y, Qty);
      SumUpdate(cart, k, y, LineTotal);
      assert LineTotal(y) == cart[k].price * Qty(cart[k]) + cart[k].price;
  }

  /** A worked example: the same dish added twice is one line
      of quantity 2, whose line total is twice the price. */
  lemma AddTwiceExample()
    ensures var dosa := CartItem(5, 2, "Dosa", "X", 100, 0);
      var c := AddToCart(AddToCart([], dosa), dosa);
      |c| == 1 && c[0].quantity == 2 && LineTotal(c[0]) == 200
  {
    var dosa := CartItem(5, 2, "Dosa", "X", 100, 0);
    var c1 := AddToCart([], dosa);
    assert c1 == [dosa.(quantity := 1)];
    assert FirstMatch(c1, 5, 2, 0);
  }

  // ---------------------------------------------------------------- properties of quantity changes

  /** On a valid cart a decrease that empties a line leaves no entry with its key. */
  lemma DecreaseToZeroRemovesKey(cart: seq<CartItem>, id: int, restaurantId: int)
    requires Valid(cart)
    requires forall k :: FirstMatch(cart, id, restaurantId, k) ==> Qty(cart[k]) <= 1
    ensures ChangeQuantity(cart, id, restaurantId, Decrease).Some? ==>
      NoMatch(ChangeQuantity(cart, id, restaurantId, Decrease).value, id, restaurantId)
  {
    if FindKey(cart, id, restaurantId).Some? {
      var k := FindKey(cart, id, restaurantId).value;
      var r := ChangeQuantity(cart, id, restaurantId, Decrease).value;
      assert forall j :: 0 <= j < |r| ==> r[j] == (if j < k then cart[j] else cart[j + 1]);
    }
  }

  /** Increase and decrease move the count by exactly one on a valid cart. */
  lemma ChangeMovesCountByOne(cart: seq<CartItem>, id: int, restaurantId: int, action: QtyAction)
    requires Valid(cart)
    requires ChangeQuantity(cart, id, restaurantId, action).Some?
    ensures action == Increase ==> Count(ChangeQuantity(cart, id, restaurantId, action).value) == Count(cart) + 1
    ensures action == Decrease ==> Count(ChangeQuantity(cart, id, restaurantId, action).value) == Count(cart) - 1
  {
    var k := FindKey(cart, id, restaurantId).value;
    match action
    case Increase =>
      SumUpdate(cart, k, cart[k].(quantity := Qty(cart[k]) + 1), Qty);
    case Decrease =>
      if Qty(cart[k]) <= 1 {
        SumRemove(cart, k, Qty);
      } else {
        SumUpdate(cart, k, cart[k].(quantity := Qty(cart[k]) - 1), Qty);
      }
    case OtherAction =>
  }

  /** A worked example: one line of quantity 1, decreased, leaves an empty cart. */
  lemma DecreaseExample(item: CartItem)
    requires item.quantity == 1
    ensures ChangeQuantity([item], item.id, item.restaurantId, Decrease) == Some([])
  {
    assert FirstMatch([item], item.id, item.restaurantId, 0);
  }

  // ---------------------------------------------------------------- the add button

  /** The guard of the dish cards' ADD button: the item is passed on only when
      its id, restaurant id and price are nonzero and its name is not empty;
      the restaurant name may be empty. The item carries no quantity. */
  function CartRequest(id: int, restaurantId: int, name: string, restaurantName: string, price: int): (r: Option<CartItem>)
    ensures r.Some? <==> id != 0 && restaurantId != 0 && name != "" && price != 0
    ensures r.Some? ==>
      && r.value.id == id && r.value.restaurantId == restaurantId && r.value.name == name
      && r.value.restaurantName == restaurantName && r.value.price == price
  {
    if id == 0 || restaurantId == 0 || name == "" || price == 0 then None
    else Some(CartItem(id, restaurantId, name, restaurantName, price, 0))
  }
}

=== FILE: catalog.dfy ===
/** The catalog generator: `buildRestaurants` and `buildDishesForRestaurant`,
    which derive the mock restaurants and their menus from the configuration
    document by index arithmetic, and the `ratingClass` used to colour a rating.
    Ratings are integers in tenths: the value each record stores after
    rounding to one decimal. */
module Catalog {
  import opened Wrappers
  import opened Text

  datatype DishTemplate = DishTemplate(name: string, veg: bool, basePrice: int, cuisine: string)

  /** The configuration document; a field that is absent or `null` is `None`. */
  datatype Config = Config(
    areas: Option<seq<string>>,
    cuisineCombos: Option<seq<seq<string>>>,
    restaurantNamePrefixes: Option<seq<string>>,
    dishTemplates: Option<seq<DishTemplate>>)

  /** A generated restaurant. `rating` is in tenths, `deliveryMinutes` is the
      lower end of the five-minute delivery window and `costForTwo` is in rupees. */
  datatype Restaurant = Restaurant(
    id: nat,
    name: string,
    cuisines: seq<string>,
    rating: nat,
    deliveryMinutes: nat,
    costForTwo: nat,
    tags: seq<string>,
    area: string)

  /** A generated dish; `rating` is in tenths, as stored after rounding. */
  datatype Dish = Dish(
    id: nat,
    restaurantId: nat,
    name: string,
    price: int,
    rating: nat,
    isVeg: bool,
    cuisine: string)

  const TopRated := "Top Rated"
  const Offers := "Offers"
  const DefaultPrefix := "Restaurant"
  const DefaultArea := "City Center"
  const DefaultCuisines := ["Indian"]
  const ChefSpecial := DishTemplate("Chef Special", true, 200, "Indian")

  /** `config.field || []`. */
  function ListOr<T>(o: Option<seq<T>>): seq<T> {
    if o.Some? then o.value else []
  }

  /** `xs[i % xs.length] || fallback` for a list of strings: an empty list
      yields `undefined` and an empty string is falsy, so both fall back. */
  function PickText(xs: seq<string>, i: nat, fallback: string): string {
    if |xs| == 0 || xs[i % |xs|] == "" then fallback else xs[i % |xs|]
  }

  /** `combos[i % combos.length] || ["Indian"]`: an array is truthy even when
      empty, so only an empty list of combinations falls back. */
  function PickCombo(combos: seq<seq<string>>, i: nat): seq<string> {
    if |combos| == 0 then DefaultCuisines else combos[i % |combos|]
  }

  /** `3.6 + (i % 15) * 0.06`, in hundredths. */
  function RatingHundredths(i: nat): nat {
    360 + 6 * (i % 15)
  }

  /** `Number(rating.toFixed(1))`, in tenths: the nearest tenth, which is
      unique because the hundredths never end in 5. */
  function RatingTenths(i: nat): (t: nat)
    ensures 10 * t - 5 < RatingHundredths(i) < 10 * t + 5
  {
    (RatingHundredths(i) + 5) / 10
  }

  /** The tag rule: "Top Rated" on the unrounded rating, then "Offers". */
  function TagsAt(i: nat): seq<string> {
    (if RatingHundredths(i) >= 440 then [TopRated] else []) + (if i % 4 == 0 then [Offers] else [])
  }

  /** The restaurant `buildRestaurants` produces at index `i`. */
  function RestaurantAt(config: Config, i: nat): (r: Restaurant)
    ensures r.id == i + 1
    ensures 25 <= r.deliveryMinutes <= 50 && r.deliveryMinutes % 5 == 0
    ensures 250 <= r.costForTwo <= 600 && r.costForTwo % 50 == 0
    ensures 36 <= r.rating <= 44
    ensures r.rating == RatingTenths(i)
    ensures r.deliveryMinutes == 25 + 5 * (i % 6) && r.costForTwo == 250 + 50 * (i % 8)
    ensures var xs := ListOr(config.areas);
      |xs| > 0 && xs[i % |xs|] != "" ==> r.area == xs[i % |xs|]
    ensures var cs := ListOr(config.cuisineCombos);
      |cs| > 0 ==> r.cuisines == cs[i % |cs|]
    ensures var ps := ListOr(config.restaurantNamePrefixes);
      |ps| > 0 && ps[i % |ps|] != "" ==> r.name == ps[i % |ps|] + " " + NatToString(i + 1)
    ensures r.tags == (if i % 15 == 14 then [TopRated] else []) + (if i % 4 == 0 then [Offers] else [])
    ensures TopRated in r.tags <==> i % 15 == 14
    ensures Offers in r.tags <==> i % 4 == 0
  {
    var prefix := PickText(ListOr(config.restaurantNamePrefixes), i, DefaultPrefix);
    Restaurant(
      i + 1,
      prefix + " " + NatToString(i + 1),
      PickCombo(ListOr(config.cuisineCombos), i),
      RatingTenths(i),
      25 + (i % 6) * 5,
      250 + (i % 8) * 50,
      TagsAt(i),
      PickText(ListOr(config.areas), i, DefaultArea))
  }

  /** `buildRestaurants(config, total)`: `total` restaurants with ids 1..total in order. */
  function BuildRestaurants(config: Config, total: nat): (rs: seq<Restaurant>)
    ensures |rs| == total
    ensures forall i :: 0 <= i < total ==> rs[i] == RestaurantAt(config, i)
    ensures forall i :: 0 <= i < total ==> rs[i].id == i + 1
  {
    seq(total, i requires 0 <= i < total => RestaurantAt(config, i))
  }

  /** A restaurant's name is its prefix, a space and its id, so the id can be
      read back from the end of the name whatever the prefix. */
  lemma NameEndsWithId(config: Config, i: nat)
    ensures TrailingNumber(RestaurantAt(config, i).name) == RestaurantAt(config, i).id
  {
    TrailingNumberOfLabel(PickText(ListOr(config.restaurantNamePrefixes), i, DefaultPrefix), i + 1);
  }

  /** Prefixes, areas and cuisine combinations cycle with the length of their
      list: index `i` and index `i + len` draw the same entry. */
  lemma ListsCycle(config: Config, i: nat)
    ensures var xs := ListOr(config.areas);
      |xs| > 0 ==> RestaurantAt(config, i + |xs|).area == RestaurantAt(config, i).area
    ensures var xs := ListOr(config.cuisineCombos);
      |xs| > 0 ==> RestaurantAt(config, i + |xs|).cuisines == RestaurantAt(config, i).cuisines
    ensures var xs := ListOr(config.restaurantNamePrefixes);
      |xs| > 0 ==> PickText(xs, i + |xs|, DefaultPrefix) == PickText(xs, i, DefaultPrefix)
  {
    var a := ListOr(config.areas);
    var c := ListOr(config.cuisineCombos);
    var p := ListOr(config.restaurantNamePrefixes);
    if |a| > 0 { ModAdd(i, |a|); }
    if |c| > 0 { ModAdd(i, |c|); }
    if |p| > 0 { ModAdd(i, |p|); }
  }

  lemma ModAdd(i: nat, n: nat)
    requires n > 0
    ensures (i + n) % n == i % n
  {
    var q := i / n;
    assert i + n == (q + 1) * n + i % n;
    ModUnique(i + n, n, q + 1, i % n);
  }

  /** The remainder is determined by any quotient/remainder split. */
  lemma ModUnique(a: int, n: int, q: int, r: int)
    requires n > 0 && 0 <= r < n && a == q * n + r
    ensures a % n == r
  {
    var d := q - a / n;
    assert d * n == a % n - r;
  }

  /** The fixed fallbacks: an empty (or missing) list of areas gives
      "City Center", of combinations gives ["Indian"], of prefixes gives
      names "Restaurant <id>"; an empty string in a list also falls back. */
  lemma Fallbacks(config: Config, i: nat)
    ensures var xs := ListOr(config.areas);
      (|xs| == 0 || xs[i % |xs|] == "") ==> RestaurantAt(config, i).area == DefaultArea
    ensures |ListOr(config.cuisineCombos)| == 0 ==> RestaurantAt(config, i).cuisines == DefaultCuisines
    ensures var xs := ListOr(config.restaurantNamePrefixes);
      (|xs| == 0 || xs[i % |xs|] == "") ==>
        RestaurantAt(config, i).name == DefaultPrefix + " " + NatToString(i + 1)
  {
  }

  /** All derived numbers repeat with period 120 = lcm(15, 4, 6, 8). */
  lemma NumbersRepeatEvery120(config: Config, i: nat)
    ensures RestaurantAt(config, i + 120).rating == RestaurantAt(config, i).rating
    ensures RestaurantAt(config, i + 120).deliveryMinutes == RestaurantAt(config, i).deliveryMinutes
    ensures RestaurantAt(config, i + 120).costForTwo == RestaurantAt(config, i).costForTwo
    ensures RestaurantAt(config, i + 120).tags == RestaurantAt(config, i).tags
  {
    assert (i + 120) % 15 == i % 15;
    assert (i + 120) % 4 == i % 4;
    assert (i + 120) % 6 == i % 6;
    assert (i + 120) % 8 == i % 8;
  }

  // ---------------------------------------------------------------- rating class

  const PillTop := "rating-pill"
  const PillMid := "rating-pill rating-pill--mid"
  const PillLow := "rating-pill rating-pill--low"

  /** `ratingClass` on a rating in tenths: 4.3 and up, 3.8 and up, below. */
  function RatingClass(tenths: int): (c: string)
    ensures c == PillTop <==> tenths >= 43
    ensures c == PillMid <==> 38 <= tenths < 43
    ensures c == PillLow <==> tenths < 38
  {
    if tenths >= 43 then PillTop else if tenths >= 38 then PillMid else PillLow
  }

  /** Over generated restaurants the class depends on `i % 15` only: the top
      class from 11 on (4.26 already rounds to 4.3), the low class up to 2. */
  lemma RatingClassOfGenerated(config: Config, i: nat)
    ensures RatingClass(RestaurantAt(config, i).rating) == PillTop <==> i % 15 >= 11
    ensures RatingClass(RestaurantAt(config, i).rating) == PillMid <==> 3 <= i % 15 <= 10
    ensures RatingClass(RestaurantAt(config, i).rating) == PillLow <==> i % 15 <= 2
  {
  }

  /** "Top Rated" is decided on the unrounded rating: the restaurant at index
      13 is shown as 4.4 yet is not tagged, while every tagged one shows 4.4. */
  lemma TopRatedNeedsUnroundedRating(config: Config, i: nat)
    ensures TopRated in RestaurantAt(config, i).tags ==> RestaurantAt(config, i).rating == 44
    ensures RestaurantAt(config, 13).rating == 44 && TopRated !in RestaurantAt(config, 13).tags
  {
  }

  /** A worked example configuration: three restaurants named
      "Cafe 1".."Cafe 3" in areas A, B, A. */
  lemma ExampleCatalog()
    ensures var rs := BuildRestaurants(Config(Some(["A", "B"]), Some([["Indian"]]), Some(["Cafe"]), None), 3);
      && |rs| == 3
      && rs[0].name == "Cafe 1" && rs[1].name == "Cafe 2" && rs[2].name == "Cafe 3"
      && rs[0].area == "A" && rs[1].area == "B" && rs[2].area == "A"
      && rs[0].cuisines == ["Indian"]
  {
    var rs := BuildRestaurants(Config(Some(["A", "B"]), Some([["Indian"]]), Some(["Cafe"]), None), 3);
    assert NatToString(1) == "1" && NatToString(2) == "2" && NatToString(3) == "3";
  }

  // ---------------------------------------------------------------- dishes

  /** `templates[(rid * 17 + i) % templates.length] || ChefSpecial`. */
  function TemplateAt(config: Config, rid: nat, i: nat): DishTemplate {
    var ts := ListOr(config.dishTemplates);
    if |ts| == 0 then ChefSpecial else ts[(rid * 17 + i) % |ts|]
  }

  /** `Number((3.8 + (i % 8) * 0.05).toFixed(1))`, in tenths. In binary floating
      point each of the eight sums lands just below its .x5 midpoint, so the
      stored values are 3.8, 3.8, 3.9, 3.9, 4.0, 4.0, 4.1, 4.1: the decimal
      rating rounded down to the tenth, never more than half a tenth below it. */
  function DishRatingTenths(i: nat): (t: nat)
    ensures 10 * t <= 380 + 5 * (i % 8) <= 10 * t + 5
  {
    38 + (i % 8) / 2
  }

  /** The dish `buildDishesForRestaurant` produces at index `i` for restaurant `rid`. */
  function DishAt(config: Config, rid: nat, i: nat): (d: Dish)
    ensures d.id == rid * 100 + i && d.restaurantId == rid
    ensures d.name == TemplateAt(config, rid, i).name + " " + NatToString(i + 1)
    ensures d.price - TemplateAt(config, rid, i).basePrice in {0, 10, 20, 30, 40, 50}
    ensures d.price == TemplateAt(config, rid, i).basePrice + 10 * (i % 6)
    ensures d.rating == DishRatingTenths(i)
    ensures 38 <= d.rating <= 41
    ensures d.isVeg == TemplateAt(config, rid, i).veg && d.cuisine == TemplateAt(config, rid, i).cuisine
  {
    var t := TemplateAt(config, rid, i);
    Dish(
      rid * 100 + i,
      rid,
      t.name + " " + NatToString(i + 1),
      t.basePrice + (i % 6) * 10,
      DishRatingTenths(i),
      t.veg,
      t.cuisine)
  }

  /** `buildDishesForRestaurant(restaurant, config, count)`. */
  function BuildDishes(r: Restaurant, config: Config, count: nat): (ds: seq<Dish>)
    ensures |ds| == count
    ensures forall i :: 0 <= i < count ==> ds[i] == DishAt(config, r.id, i)
    ensures forall i :: 0 <= i < count ==> ds[i].restaurantId == r.id
  {
    seq(count, i requires 0 <= i < count => DishAt(config, r.id, i))
  }

  /** Below index 100 a dish id is the restaurant id and the index side by side. */
  lemma DishIdDecodes(config: Config, rid: nat, i: nat)
    requires i < 100
    ensures DishAt(config, rid, i).id / 100 == rid
    ensures DishAt(config, rid, i).id % 100 == i
  {
  }

  /** With at most 100 dishes per restaurant, two dishes share an id only if
      they are the same dish of the same restaurant. */
  lemma DishIdsDistinct(config: Config, r1: Restaurant, n1: nat, i: nat, r2: Restaurant, n2: nat, j: nat)
    requires n1 <= 100 && n2 <= 100 && i < n1 && j < n2
    ensures BuildDishes(r1, config, n1)[i].id == BuildDishes(r2, config, n2)[j].id
            <==> r1.id == r2.id && i == j
  {
    DishIdDecodes(config, r1.id, i);
    DishIdDecodes(config, r2.id, j);
  }

  /** The bound matters: a 101st dish would take the id of the next restaurant's first. */
  lemma DishIdsCollideBeyond100(config: Config)
    ensures DishAt(config, 1, 100).id == DishAt(config, 2, 0).id
  {
  }

  /** A dish's name ends in its 1-based position on the menu. */
  lemma DishNameEndsWithPosition(config: Config, rid: nat, i: nat)
    ensures TrailingNumber(DishAt(config, rid, i).name) == i + 1
  {
    TrailingNumberOfLabel(TemplateAt(config, rid, i).name, i + 1);
  }

  /** Templates cycle with the length of the template list, and an empty list
      gives the vegetarian "Chef Special" at 200 in Indian cuisine. */
  lemma TemplatesCycle(config: Config, rid: nat, i: nat)
    ensures var ts := ListOr(config.dishTemplates);
      |ts| > 0 ==> TemplateAt(config, rid, i + |ts|) == TemplateAt(config, rid, i)
    ensures |ListOr(config.dishTemplates)| == 0 ==>
      var d := DishAt(config, rid, i);
      && TemplateAt(config, rid, i) == ChefSpecial
      && d.name == "Chef Special " + NatToString(i + 1)
      && d.isVeg && d.cuisine == "Indian" && 200 <= d.price <= 250
  {
    var ts := ListOr(config.dishTemplates);
    if |ts| > 0 {
      ModAdd(rid * 17 + i, |ts|);
      assert rid * 17 + (i + |ts|) == (rid * 17 + i) + |ts|;
    }
  }
}

=== FILE: checkout.dfy ===
/** The checkout page: the order summary `renderCart` draws, the quantity
    buttons, and the validation and clearing of the submitted order form. */
module Checkout {
  import opened Wrappers
  import opened Text
  import opened Cart
  import opened Header
  import Catalog

  const DeliveryFee := 40

  /** One drawn row: the quantity shown and the row's amount. */
  datatype Line = Line(id: int, restaurantId: int, name: string, restaurantName: string, quantity: int, amount: int)

  datatype Summary = Summary(
    lines: seq<Line>,
    items: int,
    subtotal: int,
    total: int,
    payEnabled: bool,
    emptyShown: bool)

  function LineOf(item: CartItem): Line {
    Line(item.id, item.restaurantId, item.name, item.restaurantName, Qty(item), item.price * Qty(item))
  }

  /** `renderCart`: an empty cart shows zeros everywhere (no delivery fee) and
      disables payment; otherwise one row per entry with amount price times
      quantity, the item count, the subtotal, and the subtotal plus the fee. */
  method Summarize(cart: seq<CartItem>) returns (s: Summary)
    ensures |cart| == 0 ==> s == Summary([], 0, 0, 0, false, true)
    ensures |cart| > 0 ==> s.payEnabled && !s.emptyShown
    ensures |cart| > 0 ==> s.items == Count(cart) && s.subtotal == Subtotal(cart)
    ensures |cart| > 0 ==> s.total == s.subtotal + DeliveryFee
    ensures |s.lines| == |cart|
    ensures forall i :: 0 <= i < |cart| ==>
      && s.lines[i].quantity == Qty(cart[i])
      && s.lines[i].amount == cart[i].price * s.lines[i].quantity
      && s.lines[i].id == cart[i].id && s.lines[i].restaurantId == cart[i].restaurantId
      && s.lines[i].name == cart[i].name && s.lines[i].restaurantName == cart[i].restaurantName
  {
    if |cart| == 0 {
      return Summary([], 0, 0, 0, false, true);
    }
    var totalItems := 0;
    var subtotal := 0;
    var lines: seq<Line> := [];
    var i := 0;
    while i < |cart|
      invariant 0 <= i <= |cart|
      invariant totalItems == Count(cart[..i])
      invariant subtotal == Subtotal(cart[..i])
      invariant lines == seq(i, j requires 0 <= j < i => LineOf(cart[j]))
    {
      var item := cart[i];
      var quantity := Qty(item);
      assert cart[..i + 1] == cart[..i] + [item];
      SumAppend(cart[..i], [item], Qty);
      SumAppend(cart[..i], [item], LineTotal);
      SumSingle(item, Qty);
      SumSingle(item, LineTotal);
      totalItems := totalItems + quantity;
      subtotal := subtotal + item.price * quantity;
      lines := lines + [LineOf(item)];
      i := i + 1;
    }
    assert cart[..i] == cart;
    s := Summary(lines, totalItems, subtotal, subtotal + DeliveryFee, true, false);
  }

  /** The rows' amounts add up to the subtotal. */
  lemma {:induction false} SubtotalIsSumOfAmounts(cart: seq<CartItem>)
    ensures Subtotal(cart) == AmountSum(seq(|cart|, i requires 0 <= i < |cart| => LineOf(cart[i])))
    decreases |cart|
  {
    if |cart| > 0 {
      var ls := seq(|cart|, i requires 0 <= i < |cart| => LineOf(cart[i]));
      assert ls[1..] == seq(|cart[1..]|, i requires 0 <= i < |cart[1..]| => LineOf(cart[1..][i]));
      SubtotalIsSumOfAmounts(cart[1..]);
    }
  }

  function AmountSum(lines: seq<Line>): int {
    if |lines| == 0 then 0 else lines[0].amount + AmountSum(lines[1..])
  }

  /** The quantity buttons: no matching entry leaves the page as it was (the
      handler returns before saving); otherwise the changed cart is saved and
      the badge follows it. */
  function QuantityClick(p: Page, id: int, restaurantId: int, action: QtyAction): (p': Page)
    ensures NoMatch(GetCart(p.store), id, restaurantId) ==> p' == p
    ensures !NoMatch(GetCart(p.store), id, restaurantId) ==>
      GetCart(p'.store) == ChangeQuantity(GetCart(p.store), id, restaurantId, action).value && BadgeInSync(p')
    ensures p'.store.user == p.store.user && p'.store.location == p.store.location
    ensures p'.badge.Some? == p.badge.Some?
  {
    match ChangeQuantity(GetCart(p.store), id, restaurantId, action)
    case None => p
    case Some(c) => SaveCart(p, c)
  }

  lemma QuantityClickKeepsInvariant(p: Page, id: int, restaurantId: int, action: QtyAction)
    requires StoreValid(p.store) && BadgeInSync(p)
    ensures StoreValid(QuantityClick(p, id, restaurantId, action).store)
    ensures BadgeInSync(QuantityClick(p, id, restaurantId, action))
  {
  }

  // ---------------------------------------------------------------- the order form

  /** The form as read: name, phone and address before trimming, the selected
      location and the checked payment method ("" when none). */
  datatype OrderForm = OrderForm(name: string, phone: string, address: string, location: string, payment: string)

  datatype SubmitError = CartEmpty | DetailsMissing | PhoneInvalid

  datatype SubmitResult = SubmitResult(page: Page, error: Option<SubmitError>)

  predicate DetailsPresent(f: OrderForm) {
    Trim(f.name) != "" && Trim(f.phone) != "" && Trim(f.address) != "" && f.location != "" && f.payment != ""
  }

  /** The submit handler: an empty cart is reported first, then a missing
      field, then a phone shorter than ten characters; only when all checks
      pass is the location stored and the cart cleared. */
  function Submit(p: Page, f: OrderForm): (r: SubmitResult)
    ensures r.error == Some(CartEmpty) <==> |GetCart(p.store)| == 0
    ensures r.error == Some(DetailsMissing) <==> |GetCart(p.store)| > 0 && !DetailsPresent(f)
    ensures r.error == Some(PhoneInvalid) <==> |GetCart(p.store)| > 0 && DetailsPresent(f) && |Trim(f.phone)| < 10
    ensures r.error.Some? ==> r.page == p
    ensures r.error.None? ==>
      && GetCart(r.page.store) == []
      && GetLocation(r.page.store) == f.location
      && r.page.store.user == p.store.user
      && BadgeInSync(r.page)
  {
    if |GetCart(p.store)| == 0 then SubmitResult(p, Some(CartEmpty))
    else if !DetailsPresent(f) then SubmitResult(p, Some(DetailsMissing))
    else if |Trim(f.phone)| < 10 then SubmitResult(p, Some(PhoneInvalid))
    else
      var located := p.(store := SetLocation(p.store, f.location));
      SubmitResult(SaveCart(located, []), None)
  }

  /** After a successful order the badge, where there is one, is hidden at "0". */
  lemma SubmitHidesBadge(p: Page, f: OrderForm)
    requires p.badge.Some? && Submit(p, f).error.None?
    ensures Submit(p, f).page.badge == Some(Badge("0", false))
  {
  }

  const DefaultAreas := ["MG Road", "Koramangala", "Indiranagar", "HSR Layout", "Jayanagar"]

  /** The location choices: the configuration's areas when the document loaded
      and has an `areas` list (even an empty one), the built-in five otherwise. */
  function AreaChoices(config: Option<Catalog.Config>): (areas: seq<string>)
    ensures config.Some? && config.value.areas.Some? ==> areas == config.value.areas.value
    ensures config.None? || config.value.areas.None? ==> areas == DefaultAreas
  {
    if config.Some? && config.value.areas.Some? then config.value.areas.value else DefaultAreas
  }
}

=== FILE: detail.dfy ===
/** The restaurant detail page: the id taken from the page address, the lookup
    among the hundred generated restaurants, the thirty-dish menu, and the menu
    search. */
module Detail {
  import opened Wrappers
  import opened Text
  import opened Seqs
  import opened Catalog
  import Listing

  const RestaurantCount := 100
  const MenuSize := 30

  datatype DetailError = MissingId | NotFound

  datatype DetailPage = DetailPage(restaurant: Restaurant, dishes: seq<Dish>)

  /** Index `k` holds the first restaurant with the id. */
  predicate FirstWithId(rs: seq<Restaurant>, id: int, k: int) {
    && 0 <= k < |rs|
    && rs[k].id == id
    && forall j :: 0 <= j < k ==> rs[j].id != id
  }

  /** `restaurants.find(r => r.id === id)`. */
  function FindRestaurant(rs: seq<Restaurant>, id: int): (r: Option<Restaurant>)
    ensures r.Some? ==> r.value in rs && r.value.id == id
    ensures r.None? ==> forall x :: x in rs ==> x.id != id
    ensures forall k :: FirstWithId(rs, id, k) ==> r == Some(rs[k])
  {
    if |rs| == 0 then None
    else if rs[0].id == id then Some(rs[0])
    else
      var r := FindRestaurant(rs[1..], id);
      assert forall k :: FirstWithId(rs, id, k) ==> FirstWithId(rs[1..], id, k - 1);
      r
  }

  /** Among generated restaurants, id `k` is found exactly when it is in
      1..total, and it is the one at index k - 1. */
  lemma LookupGenerated(config: Config, total: nat, k: int)
    ensures 1 <= k <= total ==> FindRestaurant(BuildRestaurants(config, total), k) == Some(BuildRestaurants(config, total)[k - 1])
    ensures !(1 <= k <= total) ==> FindRestaurant(BuildRestaurants(config, total), k) == None
  {
    var rs := BuildRestaurants(config, total);
    if !(1 <= k <= total) {
      forall x | x in rs ensures x.id != k {
        var i :| 0 <= i < |rs| && rs[i] == x;
      }
    }
  }

  /** `initRestaurantDetailPage`: an id that is 0 or not a number (`None`) is
      rejected before anything is built; an id outside 1..100 is not found;
      otherwise the page shows that restaurant with its thirty dishes. */
  function OpenDetail(config: Config, idParam: Option<int>): (r: Result<DetailPage, DetailError>)
    ensures r == Err(MissingId) <==> idParam.None? || idParam.value == 0
    ensures r.Ok? <==> idParam.Some? && 1 <= idParam.value <= RestaurantCount
    ensures r.Ok? ==>
      && r.value.restaurant == BuildRestaurants(config, RestaurantCount)[idParam.value - 1]
      && r.value.restaurant.id == idParam.value
      && r.value.dishes == BuildDishes(r.value.restaurant, config, MenuSize)
      && |r.value.dishes| == MenuSize
      && forall d :: d in r.value.dishes ==> d.restaurantId == idParam.value
  {
    if idParam.None? || idParam.value == 0 then Err(MissingId)
    else
      var rs := BuildRestaurants(config, RestaurantCount);
      LookupGenerated(config, RestaurantCount, idParam.value);
      match FindRestaurant(rs, idParam.value)
      case None => Err(NotFound)
      case Some(restaurant) => Ok(DetailPage(restaurant, BuildDishes(restaurant, config, MenuSize)))
  }

  /** The dishes of an opened page have pairwise distinct ids. */
  lemma MenuIdsDistinct(config: Config, idParam: Option<int>, i: nat, j: nat)
    requires idParam.Some? && 1 <= idParam.value <= RestaurantCount
    requires i < j < MenuSize
    ensures OpenDetail(config, idParam).value.dishes[i].id != OpenDetail(config, idParam).value.dishes[j].id
  {
    var page := OpenDetail(config, idParam).value;
    DishIdsDistinct(config, page.restaurant, MenuSize, i, page.restaurant, MenuSize, j);
  }

  /** The menu search: the query is in the lower-cased dish name or cuisine. */
  predicate DishMatches(d: Dish, q: string) {
    Contains(Lower(d.name), q) || Contains(Lower(d.cuisine), q)
  }

  /** `applyFilter` on the menu: all dishes for an empty query, otherwise the
      matching ones, in menu order. */
  function FilterDishes(ds: seq<Dish>, desktop: string, mobile: string): (out: seq<Dish>)
    ensures Listing.Query(desktop, mobile) == "" ==> out == ds
    ensures Listing.Query(desktop, mobile) != "" ==>
      out == Filter((d: Dish) => DishMatches(d, Listing.Query(desktop, mobile)), ds)
    ensures SubseqOf(out, ds)
    ensures forall d :: d in out <==> d in ds && DishMatches(d, Listing.Query(desktop, mobile))
  {
    var q := Listing.Query(desktop, mobile);
    var p := (d: Dish) => q == "" || DishMatches(d, q);
    if q == "" then
      FilterKeepsAll(p, ds);
      SubseqReflexive(ds);
      forall d: Dish ensures DishMatches(d, q) { EmptyIsEverywhere(Lower(d.name)); }
      Filter(p, ds)
    else
      FilterIsSubseq(p, ds);
      FilterSameBy(p, (d: Dish) => DishMatches(d, q), ds);
      Filter(p, ds)
  }
}

=== FILE: header.dfy ===
/** The shared header script: the browser-storage slots for the cart, the user
    and the delivery location, the cart operations that persist through them,
    and the cart badge every save refreshes. Storage is a value; an operation
    returns the new page state instead of writing in place. */
module Header {
  import opened Wrappers
  import opened Text
  import opened Cart

  /** What `localStorage.getItem` returns for a JSON slot, as the readers see
      it: nothing, the empty string, text `JSON.parse` rejects, or a value. */
  datatype Raw<T> = Missing | Blank | Garbled | Json(value: T)

  datatype User = User(name: string, email: string)

  /** The three storage keys `fd_cart`, `fd_user` and `fd_location`; the
      location is plain text, not JSON. */
  datatype Store = Store(cart: Raw<seq<CartItem>>, user: Raw<User>, location: Option<string>)

  datatype Badge = Badge(text: string, shown: bool)

  /** A page: its storage and its cart badge (`None` when the page has no badge element). */
  datatype Page = Page(store: Store, badge: Option<Badge>)

  /** `fdGetCart`: the stored cart, or the empty cart when the slot is missing,
      blank or unparseable; it never fails. */
  function GetCart(st: Store): (c: seq<CartItem>)
    ensures st.cart.Json? ==> c == st.cart.value
    ensures !st.cart.Json? ==> c == []
  {
    match st.cart
    case Json(c) => c
    case _ => []
  }

  /** The badge for a count: the count when positive, otherwise a hidden "0". */
  function BadgeFor(count: int): (b: Badge)
    ensures b.shown <==> count > 0
    ensures b.shown ==> AllDigits(b.text) && ParseNat(b.text) == count
    ensures b.shown ==> b.text == NatToString(count)
    ensures !b.shown ==> b.text == "0"
  {
    if count > 0 then
      ParseNatToString(count);
      Badge(NatToString(count), true)
    else Badge("0", false)
  }

  /** The badge displays the count of the cart in storage. */
  predicate BadgeInSync(p: Page) {
    p.badge.None? || p.badge.value == BadgeFor(Count(GetCart(p.store)))
  }

  /** `fdRefreshCartBadge`: re-reads the stored cart and redraws the badge. */
  function RefreshBadge(p: Page): (p': Page)
    ensures p'.store == p.store && p'.badge.Some? == p.badge.Some?
    ensures BadgeInSync(p')
  {
    if p.badge.None? then p else p.(badge := Some(BadgeFor(Count(GetCart(p.store)))))
  }

  /** `fdSaveCart`: stores the cart and refreshes the badge; reading back gives
      the saved cart, and the other slots are untouched. */
  function SaveCart(p: Page, c: seq<CartItem>): (p': Page)
    ensures GetCart(p'.store) == c
    ensures p'.store.user == p.store.user && p'.store.location == p.store.location
    ensures BadgeInSync(p') && p'.badge.Some? == p.badge.Some?
  {
    RefreshBadge(p.(store := p.store.(cart := Json(c))))
  }

  /** Saving what was read changes nothing a reader can see. */
  lemma SaveWhatWasRead(p: Page)
    ensures GetCart(SaveCart(p, GetCart(p.store)).store) == GetCart(p.store)
    ensures BadgeInSync(p) ==> SaveCart(p, GetCart(p.store)).badge == p.badge
  {
  }

  /** `fdAddToCart`: read, update, save. A garbled slot is read as empty and
      so is overwritten with a one-line cart. */
  function AddItem(p: Page, item: CartItem): (p': Page)
    ensures GetCart(p'.store) == AddToCart(GetCart(p.store), item)
    ensures !p.store.cart.Json? ==> GetCart(p'.store) == [item.(quantity := 1)]
    ensures p'.store.user == p.store.user && p'.store.location == p.store.location
    ensures BadgeInSync(p') && p'.badge.Some? == p.badge.Some?
  {
    SaveCart(p, AddToCart(GetCart(p.store), item))
  }

  predicate StoreValid(st: Store) {
    Valid(GetCart(st))
  }

  /** Adding keeps the stored cart valid and raises the badge count by one. */
  lemma AddItemKeepsInvariant(p: Page, item: CartItem)
    requires StoreValid(p.store)
    ensures StoreValid(AddItem(p, item).store)
    ensures Count(GetCart(AddItem(p, item).store)) == Count(GetCart(p.store)) + 1
  {
    AddRaisesCountByOne(GetCart(p.store), item);
  }

  /** A dish card's ADD button: the guarded item is added, and a card that
      fails the guard leaves the page untouched. */
  function AddButtonClick(p: Page, id: int, restaurantId: int, name: string, restaurantName: string, price: int): (p': Page)
    ensures CartRequest(id, restaurantId, name, restaurantName, price).None? ==> p' == p
    ensures CartRequest(id, restaurantId, name, restaurantName, price).Some? ==>
      p' == AddItem(p, CartRequest(id, restaurantId, name, restaurantName, price).value)
  {
    match CartRequest(id, restaurantId, name, restaurantName, price)
    case None => p
    case Some(item) => AddItem(p, item)
  }

  // ---------------------------------------------------------------- user and location

  /** `fdGetUser`: the stored user, or `null` when missing, blank or unparseable. */
  function GetUser(st: Store): (u: Option<User>)
    ensures u.Some? <==> st.user.Json?
    ensures u.Some? ==> u.value == st.user.value
  {
    if st.user.Json? then Some(st.user.value) else None
  }

  /** `fdSetUser`. */
  function SetUser(st: Store, u: User): (st': Store)
    ensures GetUser(st') == Some(u)
    ensures st'.cart == st.cart && st'.location == st.location
  {
    st.(user := Json(u))
  }

  /** The header's log-out click removes the user. */
  function LogOut(st: Store): (st': Store)
    ensures GetUser(st') == None
    ensures st'.cart == st.cart && st'.location == st.location
  {
    st.(user := Missing)
  }

  /** The login button's greeting: "Hi, <name>" when a user with a name is stored. */
  function Greeting(st: Store): (g: Option<string>)
    ensures g.Some? <==> GetUser(st).Some? && GetUser(st).value.name != ""
    ensures g.Some? ==> g.value == "Hi, " + GetUser(st).value.name
  {
    match GetUser(st)
    case Some(u) => if u.name != "" then Some("Hi, " + u.name) else None
    case None => None
  }

  /** `fdGetLocation`: the stored location, or "" when unset. */
  function GetLocation(st: Store): (loc: string)
    ensures st.location.None? ==> loc == ""
    ensures st.location.Some? ==> loc == st.location.value
  {
    if st.location.Some? then st.location.value else ""
  }

  /** `fdSetLocation`. */
  function SetLocation(st: Store, loc: string): (st': Store)
    ensures GetLocation(st') == loc
    ensures GetCart(st') == GetCart(st) && st'.user == st.user
  {
    st.(location := Some(loc))
  }
}

=== FILE: listing.dfy ===
/** The restaurant lists of the home page and the restaurants page: the tag,
    cuisine and search filters, the sorted cuisine chips and their toggle, the
    carousel and the show-all switch. */
module Listing {
  import opened Wrappers
  import opened Text
  import opened Seqs
  import opened Catalog

  /** The filter state: the active tag ("All" when none), the active cuisine
      chip, and the text of the desktop and the mobile search boxes ("" when a
      box is absent). */
  datatype Filters = Filters(tag: string, cuisine: Option<string>, desktop: string, mobile: string)

  /** The query: the desktop search box's text, or the mobile one's when the
      desktop box is empty, trimmed and lower-cased. */
  function Query(desktop: string, mobile: string): (q: string)
    ensures q == Lower(Trim(if desktop != "" then desktop else mobile))
    ensures IsLower(q)
    ensures |q| > 0 ==> !IsSpace(q[0]) && !IsSpace(q[|q| - 1])
  {
    var t := Trim(if desktop != "" then desktop else mobile);
    LowerIsLower(t);
    assert forall k :: 0 <= k < |t| ==> IsSpace(Lower(t)[k]) == IsSpace(t[k]);
    Lower(t)
  }

  /** A tag filter applies unless the tag is empty or "All". */
  predicate TagActive(tag: string) {
    tag != "" && tag != "All"
  }

  /** A cuisine filter applies when a non-empty cuisine is selected. */
  predicate CuisineActive(c: Option<string>) {
    c.Some? && c.value != ""
  }

  /** The search filter: the query is in the lower-cased name, area or
      space-joined cuisines. */
  predicate MatchesQuery(r: Restaurant, q: string) {
    || Contains(Lower(r.name), q)
    || Contains(Lower(r.area), q)
    || Contains(Lower(Join(r.cuisines, " ")), q)
  }

  predicate TagOk(tag: string, r: Restaurant) {
    TagActive(tag) ==> tag in r.tags
  }

  predicate CuisineOk(c: Option<string>, r: Restaurant) {
    CuisineActive(c) ==> c.value in r.cuisines
  }

  /** The tag step: `tags.includes(activeTag)` unless the tag is "All" or empty. */
  function ByTag(rs: seq<Restaurant>, tag: string): seq<Restaurant> {
    if TagActive(tag) then Filter((r: Restaurant) => tag in r.tags, rs) else rs
  }

  /** The cuisine step: `cuisines.includes(activeCuisine)` when one is selected. */
  function ByCuisine(rs: seq<Restaurant>, c: Option<string>): seq<Restaurant> {
    if CuisineActive(c) then Filter((r: Restaurant) => c.value in r.cuisines, rs) else rs
  }

  /** The search step, skipped for the empty query. */
  function ByQuery(rs: seq<Restaurant>, q: string): seq<Restaurant> {
    if q != "" then Filter((r: Restaurant) => MatchesQuery(r, q), rs) else rs
  }

  /** `applyFilters`: the three steps in turn, tag, then cuisine, then search. */
  function ApplyFilters(rs: seq<Restaurant>, f: Filters): seq<Restaurant> {
    ByQuery(ByCuisine(ByTag(rs, f.tag), f.cuisine), Query(f.desktop, f.mobile))
  }

  /** What a restaurant must satisfy to pass the filters; the query condition
      needs no guard because the empty query is found everywhere. */
  predicate Admits(f: Filters, r: Restaurant) {
    TagOk(f.tag, r) && CuisineOk(f.cuisine, r) && MatchesQuery(r, Query(f.desktop, f.mobile))
  }

  lemma ByTagIsFilter(rs: seq<Restaurant>, tag: string)
    ensures ByTag(rs, tag) == Filter((r: Restaurant) => TagOk(tag, r), rs)
  {
    if TagActive(tag) {
      FilterSameBy((r: Restaurant) => tag in r.tags, (r: Restaurant) => TagOk(tag, r), rs);
    } else {
      FilterKeepsAll((r: Restaurant) => TagOk(tag, r), rs);
    }
  }

  lemma ByCuisineIsFilter(rs: seq<Restaurant>, c: Option<string>)
    ensures ByCuisine(rs, c) == Filter((r: Restaurant) => CuisineOk(c, r), rs)
  {
    if CuisineActive(c) {
      FilterSameBy((r: Restaurant) => c.value in r.cuisines, (r: Restaurant) => CuisineOk(c, r), rs);
    } else {
      FilterKeepsAll((r: Restaurant) => CuisineOk(c, r), rs);
    }
  }

  lemma ByQueryIsFilter(rs: seq<Restaurant>, q: string)
    ensures ByQuery(rs, q) == Filter((r: Restaurant) => MatchesQuery(r, q), rs)
  {
    if q == "" {
      forall r: Restaurant ensures MatchesQuery(r, q) {
        EmptyIsEverywhere(Lower(r.name));
      }
      FilterKeepsAll((r: Restaurant) => MatchesQuery(r, q), rs);
    }
  }

  /** The filters keep exactly the admitted restaurants, in their order. */
  lemma ApplyFiltersIsAdmitted(rs: seq<Restaurant>, f: Filters)
    ensures ApplyFilters(rs, f) == Filter((r: Restaurant) => Admits(f, r), rs)
    ensures SubseqOf(ApplyFilters(rs, f), rs)
    ensures forall r :: r in ApplyFilters(rs, f) <==> r in rs && Admits(f, r)
  {
    var q := Query(f.desktop, f.mobile);
    var pt := (r: Restaurant) => TagOk(f.tag, r);
    var pc := (r: Restaurant) => CuisineOk(f.cuisine, r);
    var pq := (r: Restaurant) => MatchesQuery(r, q);
    var ptc := (r: Restaurant) => TagOk(f.tag, r) && CuisineOk(f.cuisine, r);
    var all := (r: Restaurant) => Admits(f, r);
    var byTag := ByTag(rs, f.tag);
    ByTagIsFilter(rs, f.tag);
    ByCuisineIsFilter(byTag, f.cuisine);
    FilterFuse(pt, pc, ptc, rs);
    var byCuisine := ByCuisine(byTag, f.cuisine);
    assert byCuisine == Filter(ptc, rs);
    ByQueryIsFilter(byCuisine, q);
    FilterFuse(ptc, pq, all, rs);
    FilterIsSubseq(all, rs);
  }

  /** With tag "All", no cuisine and an empty search the list is unchanged. */
  lemma NoFiltersKeepAll(rs: seq<Restaurant>, desktop: string, mobile: string)
    requires Query(desktop, mobile) == ""
    ensures ApplyFilters(rs, Filters("All", None, desktop, mobile)) == rs
  {
  }

  /** Choosing a tag can only narrow the list shown under "All". */
  lemma TagNarrows(rs: seq<Restaurant>, f: Filters, tag: string)
    ensures SubseqOf(ApplyFilters(rs, f.(tag := tag)), ApplyFilters(rs, f.(tag := "All")))
  {
    var g := f.(tag := tag);
    var h := f.(tag := "All");
    ApplyFiltersIsAdmitted(rs, g);
    ApplyFiltersIsAdmitted(rs, h);
    var pg := (r: Restaurant) => Admits(g, r);
    var ph := (r: Restaurant) => Admits(h, r);
    var pt := (r: Restaurant) => TagOk(tag, r);
    FilterFuse(ph, pt, pg, rs);
    FilterIsSubseq(pt, Filter(ph, rs));
  }

  /** Choosing a cuisine can only narrow the list shown with no cuisine. */
  lemma CuisineNarrows(rs: seq<Restaurant>, f: Filters, cuisine: string)
    ensures SubseqOf(ApplyFilters(rs, f.(cuisine := Some(cuisine))), ApplyFilters(rs, f.(cuisine := None)))
  {
    var g := f.(cuisine := Some(cuisine));
    var h := f.(cuisine := None);
    ApplyFiltersIsAdmitted(rs, g);
    ApplyFiltersIsAdmitted(rs, h);
    var pg := (r: Restaurant) => Admits(g, r);
    var ph := (r: Restaurant) => Admits(h, r);
    var pc := (r: Restaurant) => CuisineOk(Some(cuisine), r);
    FilterFuse(ph, pc, pg, rs);
    FilterIsSubseq(pc, Filter(ph, rs));
  }

  /** A restaurant one of whose cuisines contains the query (ignoring case)
      matches the search. */
  lemma CuisineHitMatches(r: Restaurant, q: string, i: nat)
    requires i < |r.cuisines| && Contains(Lower(r.cuisines[i]), q)
    ensures MatchesQuery(r, q)
  {
    JoinHasEach(r.cuisines, " ", i);
    var k :| OccursAt(Join(r.cuisines, " "), r.cuisines[i], k);
    ContainsLowerWithin(Join(r.cuisines, " "), r.cuisines[i], q, k);
  }

  /** The home page filters only its first `featureCount` restaurants, so it
      never shows more than that. */
  function HomeFilters(rs: seq<Restaurant>, featureCount: nat, f: Filters): (out: seq<Restaurant>)
    ensures out == Filter((r: Restaurant) => Admits(f, r), Take(rs, featureCount))
    ensures |out| <= featureCount
    ensures forall r :: r in out <==> r in Take(rs, featureCount) && Admits(f, r)
    ensures SubseqOf(out, Take(rs, featureCount))
  {
    ApplyFiltersIsAdmitted(Take(rs, featureCount), f);
    ApplyFilters(Take(rs, featureCount), f)
  }

  const FeatureCount := 12

  /** The home page with no filter shows exactly the first twelve restaurants. */
  lemma HomeUnfilteredIsPrefix(rs: seq<Restaurant>)
    requires |rs| >= FeatureCount
    ensures HomeFilters(rs, FeatureCount, Filters("All", None, "", "")) == rs[..FeatureCount]
  {
    NoFiltersKeepAll(Take(rs, FeatureCount), "", "");
  }

  // ---------------------------------------------------------------- cuisine chips

  /** All cuisines of all restaurants, in order of appearance. */
  function AllCuisines(rs: seq<Restaurant>): (cs: seq<string>)
    ensures forall c :: c in cs <==> exists r :: r in rs && c in r.cuisines
  {
    if |rs| == 0 then [] else rs[0].cuisines + AllCuisines(rs[1..])
  }

  ghost predicate StrictlySorted(s: seq<string>) {
    forall i, j :: 0 <= i < j < |s| ==> LexLess(s[i], s[j])
  }

  /** Inserts `x` into a strictly sorted list unless it is already there. */
  function InsertSorted(x: string, s: seq<string>): (r: seq<string>)
    requires StrictlySorted(s)
    ensures StrictlySorted(r)
    ensures forall y :: y in r <==> y == x || y in s
  {
    if |s| == 0 then [x]
    else if x == s[0] then s
    else if LexLess(x, s[0]) then
      SortedHeadLeast(s);
      LexLessHeadChain(x, s);
      [x] + s
    else
      LexLessTotal(x, s[0]);
      var t := InsertSorted(x, s[1..]);
      SortedHeadLeast(s);
      ConsSorted(s[0], t);
      [s[0]] + t
  }

  lemma SortedHeadLeast(s: seq<string>)
    requires StrictlySorted(s) && |s| > 0
    ensures StrictlySorted(s[1..])
    ensures forall y :: y in s[1..] ==> LexLess(s[0], y)
  {
  }

  lemma LexLessHeadChain(x: string, s: seq<string>)
    requires StrictlySorted(s) && |s| > 0 && LexLess(x, s[0])
    ensures StrictlySorted([x] + s)
  {
    forall j | 0 < j < |[x] + s|
      ensures LexLess(([x] + s)[0], ([x] + s)[j])
    {
      if j > 1 {
        LexLessTransitive(x, s[0], s[j - 1]);
      }
    }
  }

  lemma ConsSorted(h: string, t: seq<string>)
    requires StrictlySorted(t) && forall y :: y in t ==> LexLess(h, y)
    ensures StrictlySorted([h] + t)
  {
    forall i, j | 0 <= i < j < |[h] + t|
      ensures LexLess(([h] + t)[i], ([h] + t)[j])
    {
      if i > 0 {
        assert ([h] + t)[i] == t[i - 1] && ([h] + t)[j] == t[j - 1];
      } else {
        assert t[j - 1] in t;
      }
    }
  }

  function InsertAll(xs: seq<string>, acc: seq<string>): (r: seq<string>)
    requires StrictlySorted(acc)
    ensures StrictlySorted(r)
    ensures forall y :: y in r <==> y in xs || y in acc
  {
    if |xs| == 0 then acc else InsertAll(xs[1..], InsertSorted(xs[0], acc))
  }

  /** The cuisine chips: every cuisine that occurs, once each, in sorted order. */
  function CuisineChips(rs: seq<Restaurant>): (chips: seq<string>)
    ensures forall c :: c in chips <==> exists r :: r in rs && c in r.cuisines
    ensures forall i, j :: 0 <= i < j < |chips| ==> LexLess(chips[i], chips[j])
    ensures forall i, j :: 0 <= i < j < |chips| ==> chips[i] != chips[j]
  {
    var chips := InsertAll(AllCuisines(rs), []);
    forall i, j | 0 <= i < j < |chips| ensures chips[i] != chips[j] {
      LexLessIrreflexive(chips[i]);
    }
    chips
  }

  /** A chip click: the active chip clears the selection, any other replaces it. */
  function ToggleCuisine(active: Option<string>, clicked: string): (next: Option<string>)
    ensures active == Some(clicked) ==> next == None
    ensures active != Some(clicked) ==> next == Some(clicked)
  {
    if active == Some(clicked) then None else Some(clicked)
  }

  /** Two clicks on the same chip, from no selection or from a selection of
      another chip, end with no selection. */
  lemma ToggleTwice(active: Option<string>, clicked: string)
    requires active != Some(clicked)
    ensures ToggleCuisine(ToggleCuisine(active, clicked), clicked) == None
    ensures ToggleCuisine(ToggleCuisine(None, clicked), clicked) == None
  {
  }

  // ---------------------------------------------------------------- restaurants page

  const CarouselSize := 16

  /** The carousel shows the first sixteen restaurants, or all when fewer. */
  function Carousel(rs: seq<Restaurant>): (cards: seq<Restaurant>)
    ensures |cards| == if |rs| < CarouselSize then |rs| else CarouselSize
    ensures forall i :: 0 <= i < |cards| ==> cards[i] == rs[i]
  {
    Take(rs, CarouselSize)
  }

  /** The show-all switch and what it hides: the grid is visible exactly when
      all restaurants are shown, the carousel (if present) exactly when not. */
  datatype ListView = ListView(showAll: bool, gridHidden: bool, hasCarousel: bool, carouselHidden: bool)

  function ToggleShowAll(v: ListView): (w: ListView)
    ensures w.showAll == !v.showAll
    ensures w.gridHidden == !w.showAll
    ensures w.hasCarousel == v.hasCarousel
    ensures w.hasCarousel ==> w.carouselHidden == w.showAll
  {
    var show := !v.showAll;
    ListView(show, !show, v.hasCarousel, if v.hasCarousel then show else v.carouselHidden)
  }

  lemma ToggleShowAllTwice(v: ListView)
    ensures ToggleShowAll(ToggleShowAll(v)).showAll == v.showAll
  {
  }
}

=== FILE: seqs.dfy ===
/** Sequence helpers: JavaScript's `Array.prototype.filter` and `slice(0, k)`,
    and the order-preserving subsequence relation that describes what they return. */
module Seqs {

  /** `a` can be obtained from `b` by deleting elements, keeping the order. */
  ghost predicate SubseqOf<T>(a: seq<T>, b: seq<T>)
    decreases |b|
  {
    if |a| == 0 then true
    else if |b| == 0 then false
    else (a[0] == b[0] && SubseqOf(a[1..], b[1..])) || SubseqOf(a, b[1..])
  }

  lemma {:induction false} SubseqReflexive<T>(a: seq<T>)
    ensures SubseqOf(a, a)
    decreases |a|
  {
    if |a| > 0 {
      SubseqReflexive(a[1..]);
    }
  }

  /** `s.filter(p)`: the elements satisfying `p`, in their original order. */
  function Filter<T>(p: T -> bool, s: seq<T>): (r: seq<T>)
    ensures |r| <= |s|
    ensures forall x :: x in r ==> x in s && p(x)
    ensures forall x :: x in s && p(x) ==> x in r
    ensures forall x :: x in s ==> multiset(r)[x] == if p(x) then multiset(s)[x] else 0
  {
    if |s| == 0 then []
    else
      var t := Filter(p, s[1..]);
      assert s == [s[0]] + s[1..];
      assert multiset(s[1..])[s[0]] == 0 ==> multiset(t)[s[0]] == 0;
      if p(s[0]) then [s[0]] + t else t
  }

  lemma {:induction false} FilterIsSubseq<T>(p: T -> bool, s: seq<T>)
    ensures SubseqOf(Filter(p, s), s)
    decreases |s|
  {
    if |s| > 0 {
      FilterIsSubseq(p, s[1..]);
      var r := Filter(p, s);
      if p(s[0]) {
        assert r[0] == s[0] && r[1..] == Filter(p, s[1..]);
      }
    }
  }

  /** A filter whose predicate every element passes returns its input. */
  lemma {:induction false} FilterKeepsAll<T>(p: T -> bool, s: seq<T>)
    requires forall x :: x in s ==> p(x)
    ensures Filter(p, s) == s
    decreases |s|
  {
    if |s| > 0 {
      assert s == [s[0]] + s[1..];
      FilterKeepsAll(p, s[1..]);
    }
  }

  /** Two successive filters are one filter by the conjunction. */
  lemma {:induction false} FilterFuse<T>(p: T -> bool, q: T -> bool, pq: T -> bool, s: seq<T>)
    requires forall x :: pq(x) == (p(x) && q(x))
    ensures Filter(q, Filter(p, s)) == Filter(pq, s)
    decreases |s|
  {
    if |s| > 0 {
      FilterFuse(p, q, pq, s[1..]);
      if p(s[0]) {
        assert Filter(p, s) == [s[0]] + Filter(p, s[1..]);
        assert Filter(p, s)[1..] == Filter(p, s[1..]);
      }
    }
  }

  /** Filters by predicates that agree everywhere agree. */
  lemma {:induction false} FilterSameBy<T>(p: T -> bool, q: T -> bool, s: seq<T>)
    requires forall x :: p(x) == q(x)
    ensures Filter(p, s) == Filter(q, s)
    decreases |s|
  {
    if |s| > 0 {
      FilterSameBy(p, q, s[1..]);
    }
  }

  /** `s.slice(0, k)` for a non-negative `k`: the first `k` elements, or all of them. */
  function Take<T>(s: seq<T>, k: nat): (r: seq<T>)
    ensures |r| == if k <= |s| then k else |s|
    ensures forall i :: 0 <= i < |r| ==> r[i] == s[i]
  {
    if k <= |s| then s[..k] else s
  }
}

=== FILE: session.dfy ===
/** A browsing session as a sequence of the user actions that touch the cart:
    ADD buttons on dish cards, the checkout quantity buttons, and order
    submission. Whatever the sequence, the stored cart stays valid (unique
    keys, positive quantities) and the badge shows its count. */
module Session {
  import opened Cart
  import opened Header
  import opened Checkout

  datatype Event =
    | AddClick(id: int, restaurantId: int, name: string, restaurantName: string, price: int)
    | QtyClick(id: int, restaurantId: int, action: QtyAction)
    | SubmitOrder(form: OrderForm)

  function Step(p: Page, e: Event): Page {
    match e
    case AddClick(id, rid, name, rname, price) => AddButtonClick(p, id, rid, name, rname, price)
    case QtyClick(id, rid, action) => QuantityClick(p, id, rid, action)
    case SubmitOrder(f) => Submit(p, f).page
  }

  function Run(p: Page, events: seq<Event>): Page
    decreases |events|
  {
    if |events| == 0 then p else Run(Step(p, events[0]), events[1..])
  }

  /** The invariant every page keeps between actions. */
  predicate Consistent(p: Page) {
    StoreValid(p.store) && BadgeInSync(p)
  }

  lemma StepKeepsConsistent(p: Page, e: Event)
    requires Consistent(p)
    ensures Consistent(Step(p, e))
  {
    match e
    case AddClick(id, rid, name, rname, price) =>
      var req := CartRequest(id, rid, name, rname, price);
      if req.Some? {
        AddItemKeepsInvariant(p, req.value);
      }
    case QtyClick(id, rid, action) =>
      QuantityClickKeepsInvariant(p, id, rid, action);
    case SubmitOrder(f) =>
  }

  /** Any sequence of actions from a consistent page ends on a consistent
      page: no two cart lines share a key and every quantity is positive. */
  lemma {:induction false} RunKeepsConsistent(p: Page, events: seq<Event>)
    requires Consistent(p)
    ensures Consistent(Run(p, events))
    ensures KeysUnique(GetCart(Run(p, events).store))
    decreases |events|
  {
    if |events| > 0 {
      StepKeepsConsistent(p, events[0]);
      RunKeepsConsistent(Step(p, events[0]), events[1..]);
    }
  }

  /** Even a corrupt cart slot is a consistent start: it reads as empty. */
  lemma CorruptStartIsConsistent(p: Page)
    requires !p.store.cart.Json?
    requires p.badge.None? || p.badge.value == Badge("0", false)
    ensures Consistent(p)
  {
  }
}

=== FILE: text.dfy ===
/** The string operations the storefront relies on: JavaScript's `trim`,
    lower-casing, `includes`, `join`, the decimal rendering of a count or an id,
    and the code-point order used to sort cuisine names. */
module Text {

  // ---------------------------------------------------------------- trim

  /** The code points ECMAScript's `String.prototype.trim` removes: its
      WhiteSpace and LineTerminator productions. */
  predicate IsSpace(c: char) {
    || c == '\U{9}' || c == '\U{A}' || c == '\U{B}' || c == '\U{C}' || c == '\U{D}'
    || c == ' ' || c == '\U{A0}' || c == '\U{1680}'
    || ('\U{2000}' <= c <= '\U{200A}')
    || c == '\U{2028}' || c == '\U{2029}' || c == '\U{202F}' || c == '\U{205F}'
    || c == '\U{3000}' || c == '\U{FEFF}'
  }

  /** Number of white-space characters at the front of `s`. */
  function LeadCount(s: string): (n: nat)
    ensures n <= |s|
    ensures forall k :: 0 <= k < n ==> IsSpace(s[k])
    ensures n < |s| ==> !IsSpace(s[n])
  {
    if |s| == 0 || !IsSpace(s[0]) then 0 else 1 + LeadCount(s[1..])
  }

  /** Number of white-space characters at the back of `s`. */
  function TailCount(s: string): (n: nat)
    ensures n <= |s|
    ensures forall k :: |s| - n <= k < |s| ==> IsSpace(s[k])
    ensures n < |s| ==> !IsSpace(s[|s| - n - 1])
  {
    if |s| == 0 || !IsSpace(s[|s| - 1]) then 0 else 1 + TailCount(s[..|s| - 1])
  }

  /** `s.trim()`: what is removed is white space, and what is kept neither
      starts nor ends with white space. */
  function Trim(s: string): (r: string)
    ensures LeadCount(s) + |r| <= |s|
    ensures r == s[LeadCount(s)..LeadCount(s) + |r|]
    ensures forall k :: 0 <= k < |s| && (k < LeadCount(s) || LeadCount(s) + |r| <= k) ==> IsSpace(s[k])
    ensures |r| > 0 ==> !IsSpace(r[0]) && !IsSpace(r[|r| - 1])
  {
    var a := LeadCount(s);
    var rest := s[a..];
    var b := |s| - TailCount(rest);
    assert forall k :: a <= k < |s| ==> s[k] == rest[k - a];
    s[a..b]
  }

  lemma TrimIdempotent(s: string)
    ensures Trim(Trim(s)) == Trim(s)
  {
    var t := Trim(s);
    assert LeadCount(t) == 0;
    assert |Trim(t)| == |t|;
  }

  // ---------------------------------------------------------------- case

  /** `toLowerCase` on one character, for the ASCII letters; every other
      character is left as it is. */
  function LowerChar(c: char): char {
    if 'A' <= c <= 'Z' then (c as int + 32) as char else c
  }

  function Lower(s: string): (r: string)
    ensures |r| == |s|
    ensures forall k :: 0 <= k < |s| ==> r[k] == LowerChar(s[k])
  {
    seq(|s|, k requires 0 <= k < |s| => LowerChar(s[k]))
  }

  predicate IsLower(s: string) {
    forall k :: 0 <= k < |s| ==> !('A' <= s[k] <= 'Z')
  }

  lemma LowerIsLower(s: string)
    ensures IsLower(Lower(s))
    ensures Lower(Lower(s)) == Lower(s)
  {
  }

  lemma LowerSlice(s: string, i: nat, j: nat)
    requires i <= j <= |s|
    ensures Lower(s)[i..j] == Lower(s[i..j])
  {
  }

  // ---------------------------------------------------------------- includes

  /** `q` sits in `s` at offset `k`. */
  predicate OccursAt(s: string, q: string, k: int) {
    0 <= k && k + |q| <= |s| && s[k..k + |q|] == q
  }

  /** `s.includes(q)`, computed by scanning `s` from the left. */
  predicate Contains(s: string, q: string)
    decreases |s|
  {
    if |q| > |s| then false
    else if s[..|q|] == q then true
    else Contains(s[1..], q)
  }

  /** The scan finds `q` exactly when `q` occurs somewhere in `s`. */
  lemma {:induction false} ContainsIffOccurs(s: string, q: string)
    ensures Contains(s, q) <==> exists k :: OccursAt(s, q, k)
    decreases |s|
  {
    if |q| > |s| {
    } else if s[..|q|] == q {
      assert OccursAt(s, q, 0);
    } else {
      ContainsIffOccurs(s[1..], q);
      if Contains(s[1..], q) {
        var k :| OccursAt(s[1..], q, k);
        assert s[1..][k..k + |q|] == s[k + 1..k + 1 + |q|];
        assert OccursAt(s, q, k + 1);
      }
      if exists k :: OccursAt(s, q, k) {
        var k :| OccursAt(s, q, k);
        assert k != 0;
        assert s[1..][k - 1..k - 1 + |q|] == s[k..k + |q|];
        assert OccursAt(s[1..], q, k - 1);
      }
    }
  }

  /** The empty query is found in every string, so a guard `if (query)` in
      front of an `includes` filter changes nothing. */
  lemma EmptyIsEverywhere(s: string)
    ensures Contains(s, "")
  {
  }

  /** An occurrence inside an occurrence is an occurrence. */
  lemma OccursWithin(s: string, t: string, q: string, i: int, j: int)
    requires OccursAt(s, t, i) && OccursAt(t, q, j)
    ensures OccursAt(s, q, i + j)
  {
    forall k | 0 <= k < |q|
      ensures s[i + j + k] == q[k]
    {
      assert q[k] == t[j + k] == s[i + j + k];
    }
    assert s[i + j..i + j + |q|] == q;
  }

  /** A match in a lower-cased piece of `s` is a match in lower-cased `s`. */
  lemma ContainsLowerWithin(s: string, t: string, q: string, i: int)
    requires OccursAt(s, t, i) && Contains(Lower(t), q)
    ensures Contains(Lower(s), q)
  {
    LowerSlice(s, i, i + |t|);
    assert OccursAt(Lower(s), Lower(t), i);
    ContainsIffOccurs(Lower(t), q);
    var j :| OccursAt(Lower(t), q, j);
    OccursWithin(Lower(s), Lower(t), q, i, j);
    ContainsIffOccurs(Lower(s), q);
  }

  // ---------------------------------------------------------------- join

  /** `xs.join(sep)`. */
  function Join(xs: seq<string>, sep: string): (r: string)
    ensures |xs| == 1 ==> r == xs[0]
  {
    if |xs| == 0 then "" else if |xs| == 1 then xs[0] else xs[0] + sep + Join(xs[1..], sep)
  }

  /** Every element appears in the joined string. */
  lemma {:induction false} JoinHasEach(xs: seq<string>, sep: string, i: nat)
    requires i < |xs|
    ensures exists k :: OccursAt(Join(xs, sep), xs[i], k)
  {
    var j := Join(xs, sep);
    if |xs| == 1 {
      assert OccursAt(j, xs[i], 0);
    } else if i == 0 {
      assert j == xs[0] + (sep + Join(xs[1..], sep));
      assert OccursAt(j, xs[0], 0);
    } else {
      JoinHasEach(xs[1..], sep, i - 1);
      var k :| OccursAt(Join(xs[1..], sep), xs[1..][i - 1], k);
      var off := |xs[0] + sep|;
      assert j == (xs[0] + sep) + Join(xs[1..], sep);
      assert OccursAt(j, Join(xs[1..], sep), off);
      OccursWithin(j, Join(xs[1..], sep), xs[i], off, k);
    }
  }

  // ---------------------------------------------------------------- numbers

  predicate IsDigit(c: char) {
    '0' <= c <= '9'
  }

  predicate AllDigits(s: string) {
    forall k :: 0 <= k < |s| ==> IsDigit(s[k])
  }

  function DigitChar(d: nat): (c: char)
    requires d < 10
    ensures IsDigit(c)
  {
    ('0' as int + d) as char
  }

  function DigitValue(c: char): nat
    requires IsDigit(c)
  {
    c as int - '0' as int
  }

  /** `String(n)` for a natural number: the decimal digits, with no leading zero. */
  function NatToString(n: nat): (r: string)
    ensures |r| >= 1 && AllDigits(r)
    ensures r[0] == '0' <==> n == 0
    ensures n == 0 <==> r == "0"
    decreases n
  {
    if n < 10 then [DigitChar(n)] else NatToString(n / 10) + [DigitChar(n % 10)]
  }

  /** Reads a string of decimal digits back as a number. */
  function ParseNat(s: string): nat
    requires AllDigits(s)
  {
    if |s| == 0 then 0 else 10 * ParseNat(s[..|s| - 1]) + DigitValue(s[|s| - 1])
  }

  lemma {:induction false} ParseNatToString(n: nat)
    ensures ParseNat(NatToString(n)) == n
    decreases n
  {
    var r := NatToString(n);
    if n >= 10 {
      ParseNatToString(n / 10);
      assert r[..|r| - 1] == NatToString(n / 10);
    }
  }

  /** Length of the run of digits at the end of `s`. */
  function DigitTail(s: string): (n: nat)
    ensures n <= |s|
    ensures AllDigits(s[|s| - n..])
  {
    if |s| == 0 || !IsDigit(s[|s| - 1]) then 0
    else
      var init := s[..|s| - 1];
      var m := DigitTail(init);
      assert s[|s| - (m + 1)..] == init[|init| - m..] + [s[|s| - 1]];
      m + 1
  }

  /** The number written at the end of `s` (0 when `s` does not end in a digit). */
  function TrailingNumber(s: string): nat {
    ParseNat(s[|s| - DigitTail(s)..])
  }

  /** Whatever comes before the space, `p + " " + String(n)` ends in the number `n`. */
  lemma {:induction false} TrailingNumberOfLabel(p: string, n: nat)
    ensures TrailingNumber(p + " " + NatToString(n)) == n
  {
    var d := NatToString(n);
    var s := p + " " + d;
    DigitTailOfDigits(p + " ", d);
    assert s[|s| - |d|..] == d;
    ParseNatToString(n);
  }

  lemma {:induction false} DigitTailOfDigits(a: string, d: string)
    requires AllDigits(d)
    requires |a| > 0 && !IsDigit(a[|a| - 1])
    ensures DigitTail(a + d) == |d|
    decreases |d|
  {
    if |d| == 0 {
      assert a + d == a;
    } else {
      assert (a + d)[..|a + d| - 1] == a + d[..|d| - 1];
      DigitTailOfDigits(a, d[..|d| - 1]);
    }
  }

  // ---------------------------------------------------------------- order

  /** The order `Array.prototype.sort` uses for strings, on code points:
      a proper prefix comes first, otherwise the first differing character decides. */
  predicate LexLess(a: string, b: string)
    decreases |a|
  {
    if |a| == 0 then |b| > 0
    else if |b| == 0 then false
    else a[0] < b[0] || (a[0] == b[0] && LexLess(a[1..], b[1..]))
  }

  lemma {:induction false} LexLessIrreflexive(a: string)
    ensures !LexLess(a, a)
    decreases |a|
  {
    if |a| > 0 {
      LexLessIrreflexive(a[1..]);
    }
  }

  lemma {:induction false} LexLessTransitive(a: string, b: string, c: string)
    requires LexLess(a, b) && LexLess(b, c)
    ensures LexLess(a, c)
    decreases |a|
  {
    if |a| > 0 && a[0] == b[0] && b[0] == c[0] {
      LexLessTransitive(a[1..], b[1..], c[1..]);
    }
  }

  lemma {:induction false} LexLessTotal(a: string, b: string)
    requires a != b
    ensures LexLess(a, b) || LexLess(b, a)
    decreases |a|
  {
    if |a| > 0 && |b| > 0 && a[0] == b[0] {
      assert a == [a[0]] + a[1..] && b == [b[0]] + b[1..];
      LexLessTotal(a[1..], b[1..]);
    }
  }
}

=== FILE: wrappers.dfy ===
/** Optional values and error-carrying results used throughout the storefront model.
    `None` stands for JavaScript's `null`/`undefined` wherever the source tests for them. */
module Wrappers {

  datatype Option<+T> = None | Some(value: T)

  /** The outcome of an operation the source ends by throwing or by an early return. */
  datatype Result<+T, +E> = Ok(value: T) | Err(error: E)
}
